=== FILE: README.md ===
# Los Románticos landing page: the deterministic core in Dafny

The page is a scroll-driven band site. Under its markup, GSAP timelines,
canvas and Web Audio calls sit four pieces of plain control logic:

- **Rhythm bed** (`AudioController`). A drone whose gain is pulsed by a
  lookahead beat scheduler. Its volume, bass pitch and tempo follow scroll
  progress, and its master gain follows the mute flag.
- **Particle field** (`ParticleCanvas`). Particles are created on resize.
  Each frame advances them under a speed taken from shared settings or from
  scroll progress, wraps them toroidally, pushes them away from the pointer
  and vibrates them on a heartbeat. They are drawn as discs, or as streaks at
  warp speed.
- **Member flip card** (`MemberCard`). A two-state toggle that calls
  `onFlip` on the flip to the back only.
- **Page shell** (`App`):
  - navigation routing and the deferred scroll it schedules;
  - the table of particle settings written by the scroll-triggered phases;
  - the mute toggle and the cues that play sound effects;
  - the guard around every sound effect.

  The sound effects themselves are data (`Sounds`, over the `WebAudio`
  vocabulary). Each is the list of parameter automation calls it makes and
  the start and stop times of its sources. An effect is written once as a
  score whose times are offsets from its start, and played at the audio
  clock by delaying every time by the clock (`WebAudio.Shift`).

All quantities are `real`. The model leaves out the browser's state: audio
clock, scroll position, page height, canvas size, pointer, `Math.random`
draws, `sin`/`cos`/`sqrt` and whether a sound function throws. Each of these
is a parameter, with its range stated where the source guarantees one. The scroll position and the audio clock have no stated range, so that an overscroll can be modelled. The source divides unguarded by the
page height and by the pointer distance. A zero page height, or a zero
distance inside the repulsion radius, is therefore excluded by a `requires`
rather than modelled as NaN.

Modules: `Wrappers` (`Option`), `Scroll` (scroll progress), `WebAudio`
(automation events and well-formedness), `Sounds`, `AudioController`,
`ParticleCanvas`, `MemberCard`, `App`.

Four behaviours of the code that a reader may not expect. The model
follows the code in each:

- The wrap bounds are closed. After a frame a base coordinate can equal the
  canvas width or height, because undershooting maps to the far edge. See
  `ParticleCanvas.Wrap`.
- With a settings ref present, the ref's speed always applies, even when it
  is exactly 1. Without a ref, the fallback speed is always 1. So the value 1
  never acts as a sentinel, and what decides is whether the ref is present.
  This page always passes a ref (App.tsx:545), so the no-ref path is not
  used here.
  See `ParticleCanvas.SpeedRule`.
- Unmuting inside the last 50 px restores the scroll volume. It does not
  apply the end-of-page fade. See `AudioController.UnmuteIgnoresEndFade`.
- Scroll progress is capped at 1 but has no lower bound. A negative scroll
  position, such as an elastic overscroll above the top, gives a negative
  progress: the tempo falls below 50 BPM, the bass below 50 Hz and the
  particle speed below its resting value. See the finding below and
  `Scroll.ClampedProgress`.

## Model

| member | source | states |
|---|---|---|
| `Scroll.Progress` | components/AudioController.tsx:162 | progress is min(scrollY/docHeight, 1): at most 1, exactly 1 iff the page end is reached, the plain ratio below it, and non-negative for a non-negative position |
| `Scroll.ProgressMonotone` | components/ParticleCanvas.tsx:78 | scrolling further never lowers the progress |
| `Scroll.ProgressExceeds` | components/ParticleCanvas.tsx:78-100 | progress passes a threshold below 1 exactly when the position passes that fraction of the scrollable height, which is how the 40 % colour switch reads in pixels |
| `Scroll.ClampedProgress` | components/AudioController.tsx:162 | the progress with the missing lower bound: always in [0, 1], 0 above the top of the page, and the written progress at every non-negative position |
| `WebAudio.Shift` | App.tsx:75 | delaying a sound moves every event time, source start and source stop by the delay. Every event keeps its kind and value, every track its parameter, every source its node and kind, and a source without a stop stays without one |
| `WebAudio.ShiftWellFormed` | App.tsx:75 | a sound well formed around t is well formed around t + d once delayed by d |
| `WebAudio.ShiftBackWellFormed` | App.tsx:75 | undoing a delay keeps a sound well formed |
| `WebAudio.ShiftWellFormedIff` | App.tsx:75 | a delayed sound is well formed around the delayed start exactly when the original is around the original start |
| `WebAudio.ShiftShift` | App.tsx:75 | two delays add up |
| `WebAudio.ShiftZero` | App.tsx:75 | a delay of 0 changes nothing |
| `WebAudio.ShiftInverse` | App.tsx:75 | delaying by d and then by −d gives the sound back |
| `WebAudio.CheckIsWellFormed` | App.tsx:100-326 | `WebAudio.Check` accepts a sound exactly when it is well formed: events in order and in the window, ramps well defined, one track per parameter, sources within the window |
| `Sounds.Score` | App.tsx:100-326 | the eight effects as automation data, with every time an offset from the effect's start. Its contract is stated by `Sounds.ScoreWellFormed` and the per-effect check lemmas |
| `Sounds.Render` | App.tsx:71-79 | an effect as scheduled from the audio clock: the score delayed by the clock. Its contract is stated by `Sounds.RenderWellFormed` and `Sounds.RenderShift` |
| `Sounds.ScoreWellFormed` | App.tsx:100-326 | every effect's score, written from time 0, is well formed within its span |
| `Sounds.RenderWellFormed` | App.tsx:100-326 | every effect, at any start time, schedules nothing before its start or after its span; every exponential ramp has a strictly positive target and starts from a positive value; each parameter is automated from one track |
| `Sounds.ReverseImpactChecks` | App.tsx:100-141 | the power-down effect (150 Hz to 10 Hz over 0.6 s, filtered 0.6 s noise) is accepted by the index-by-index check `WebAudio.Check` from 0 to 0.6 s |
| `Sounds.ForwardImpactChecks` | App.tsx:143-160 | the power-up effect (80 Hz to 1 Hz, gain 0.8 to 0.001 over 0.5 s) is accepted by the index-by-index check `WebAudio.Check` from 0 to 0.5 s |
| `Sounds.DeepSwooshChecks` | App.tsx:175-216 | the call-to-action swoosh (4 s noise, 50 Hz sub) is accepted by the index-by-index check `WebAudio.Check` from 0 to 4 s |
| `Sounds.EtherealSwooshChecks` | App.tsx:218-242 | the ethereal swoosh (2 s noise, 400 to 1200 Hz sweep) is accepted by the index-by-index check `WebAudio.Check` from 0 to 2 s |
| `Sounds.FlipClickChecks` | App.tsx:244-257 | the flip click (2000 to 500 Hz in 50 ms, stop at 0.1 s) is accepted by the index-by-index check `WebAudio.Check` from 0 to 0.1 s |
| `Sounds.JazzChordChecks` | App.tsx:259-276 | the five-note chord pad (174.61 to 392 Hz, 3 s) is accepted by the index-by-index check `WebAudio.Check` from 0 to 3 s |
| `Sounds.PartyKickChecks` | App.tsx:278-291 | the party kick (150 to 40 Hz, 0.3 s) is accepted by the index-by-index check `WebAudio.Check` from 0 to 0.3 s |
| `Sounds.ImpactBoomChecks` | App.tsx:293-326 | the footer impact (120 to 30 Hz tone, 2 s filtered noise) is accepted by the index-by-index check `WebAudio.Check` from 0 to 2.5 s |
| `Sounds.RenderShift` | App.tsx:71-79 | an effect started at t + d is the one started at t delayed by d: effects carry no state between calls |
| `AudioController.Mounted` | components/AudioController.tsx:10-23 | on mount there is no graph, no pending tick and a tempo of 50 BPM; the handler-visible mute flag starts at the prop and the scheduler clock at 0 |
| `AudioController.SyncMute` | components/AudioController.tsx:26-40 | the handler-visible flag follows the prop. With a graph, muting targets gain 0 and unmuting the scroll volume, which lies in [0.15, 0.55] at a non-negative position, both with a 0.1 s time constant. Clock, tempo, tick and bass are untouched |
| `AudioController.HandleScroll` | components/AudioController.tsx:155-183 | nothing before initialization. In the last 50 px: gain target 0 with a 0.2 s constant, tempo and bass unchanged. Elsewhere: tempo 50+100p, bass 50+40p, and volume 0.15+0.4p only when unmuted, each in range at a non-negative position. A muted engine's gain is never raised |
| `AudioController.HandleScrollClamped` | components/AudioController.tsx:155-183 | the scroll handler with progress bounded below. It equals the written handler at every non-negative position, and outside the end zone it keeps tempo in [50, 150], bass in [50, 90] and the unmuted volume in [0.15, 0.55] at every position |
| `AudioController.ClampedScrollKeepsValid` | components/AudioController.tsx:160-182 | with progress bounded below, a scroll at any position, an overscroll included, keeps the engine in range and the tempo positive |
| `AudioController.OverscrollStallsScheduler` | components/AudioController.tsx:107-148 | as written, a scroll 60 px above the top of a page with 100 px to scroll sets the tempo to −10 BPM and the beat period to −6 s. From a clock inside the lookahead window, the n-th beat time stays inside it for every n, so the loop never exits |
| `AudioController.Init` | components/AudioController.tsx:54-90 | an initialized engine is returned unchanged. Otherwise a graph is created with master gain 0 when muted and 0.1 otherwise, and the bass at 50 Hz |
| `AudioController.InitIdempotent` | components/AudioController.tsx:55-89 | a second initialization changes nothing, even interleaved with unlocking |
| `AudioController.Unlock` | components/AudioController.tsx:93-103 | a suspended context is resumed and nothing else changes |
| `AudioController.Stop` | components/AudioController.tsx:197-200 | stopping cancels the pending tick and suspends the context, keeping clock, tempo and levels |
| `AudioController.KickWellFormed` | components/AudioController.tsx:130-132 | the bass kick (40 Hz above the current frequency, falling back over 0.1 s) is well formed exactly when the current frequency is positive |
| `AudioController.BeatScore` | components/AudioController.tsx:122-146 | one beat as automation data from time 0: the rhythm envelope (cancel, 0, 1 at 10 ms, 0.001 at 250 ms), the kick from bassNow+40 back to bassNow over 100 ms, the noise click from 0.05 to 0.001 over 50 ms and the noise source stopped at 50 ms; its contract is stated by `AudioController.BeatScoreWellFormed` and `AudioController.BeatSound` |
| `AudioController.BeatScoreWellFormed` | components/AudioController.tsx:122-146 | the beat's score from time 0 is well formed within 0.25 s exactly when the current bass frequency is positive |
| `AudioController.BeatSound` | components/AudioController.tsx:122-146 | one beat's envelope, pitch kick and noise click are well formed within 0.25 s exactly when the current bass frequency is positive |
| `AudioController.Start` | components/AudioController.tsx:111-113 | the first beat time is the stored clock caught up to the audio clock: never in the past, never before the stored clock |
| `AudioController.StepsDecrease` | components/AudioController.tsx:116-148 | each loop iteration strictly lowers the number of beats still fitting before the horizon, so the loop terminates for a positive beat period |
| `AudioController.FillWindow` | components/AudioController.tsx:115-149 | the loop emits the progression start + i·spb, every beat in [now, now + 0.1), and stops at the first time at or past now + 0.1 |
| `AudioController.Tick` | components/AudioController.tsx:105-152 | without a graph, no beats and no new frame. Otherwise: the clock never moves back and ends at or past now + 0.1; beats start at the caught-up clock, lie in the window and are exactly 60/tempo apart; at most one beat per tick up to 600 BPM; none when the clock is already past the horizon; a clock that fell behind restarts at now with at least one beat, and the missed beats are dropped |
| `AudioController.ProgressionSpacing` | components/AudioController.tsx:116-148 | in the progression the loop emits, neighbouring beats are exactly one beat period apart |
| `AudioController.TickSpacing` | components/AudioController.tsx:108-148 | beats of one tick are one period apart, and a period of at least 0.1 s allows at most one beat |
| `AudioController.TickTwice` | components/AudioController.tsx:105-152 | two ticks at one tempo: while the audio clock has not overtaken the stored clock, their beats form one progression from the first tick's start, and the second tick's first beat is one period after the first tick's last |
| `AudioController.ContinueGrid` | components/AudioController.tsx:110-147 | a tick starting where the previous one stopped extends its progression, with exactly one period across the seam |
| `AudioController.ProgressionAppend` | components/AudioController.tsx:115-147 | beats that continue a progression from its next time extend it |
| `AudioController.Restart` | components/AudioController.tsx:110-116 | a tick that starts at the audio clock emits at least one beat, because its first beat time is inside the window |
| `AudioController.Play` | components/AudioController.tsx:190-196 | starting playback leaves an initialized, running engine with a pending tick and the clock at now + 0.1, schedules no beat in that first tick, and keeps existing levels and tempo |
| `AudioController.InitValid` | components/AudioController.tsx:20-90 | the tempo, gain and bass ranges hold on mount and after initialization |
| `AudioController.ScrollKeepsValid` | components/AudioController.tsx:160-182 | a scroll at a non-negative position keeps tempo in [50, 150], gain target in [0, 0.55] and bass target in [50, 90] |
| `AudioController.MuteKeepsValid` | components/AudioController.tsx:28-38 | mute sync at a non-negative position keeps the same ranges |
| `AudioController.ScrollMonotone` | components/AudioController.tsx:162-182 | scrolling further, short of the end zone, never lowers the tempo or the bass target, muted or not, nor the gain target of an unmuted engine |
| `AudioController.MuteRoundTrip` | components/AudioController.tsx:26-40 | mute then unmute restores the scroll volume and leaves clock, tempo, tick and bass as they were, so beats resume in phase |
| `AudioController.UnmuteMatchesScroll` | components/AudioController.tsx:32-37 | outside the end zone, unmuting sets the same gain target as a scroll at the same position |
| `AudioController.UnmuteIgnoresEndFade` | components/AudioController.tsx:26-183 | anywhere in the last 50 px a scroll sets the gain target to 0, while unmuting there sets at least 0.15 at a non-negative position and 0.55 at or past the very bottom |
| `ParticleCanvas.Scale` | components/ParticleCanvas.tsx:57-60 | a uniform draw times an axis length lies on the axis, strictly below its end when it is positive |
| `ParticleCanvas.Spawn` | components/ParticleCanvas.tsx:56-65 | a new particle has size in [1, 3), opacity in [0.2, 0.7), both speeds in [-0.5, 0.5), and position and base on the canvas |
| `ParticleCanvas.ParticleCount` | components/ParticleCanvas.tsx:54 | 80 particles exactly when the viewport is narrower than 768 px, 180 otherwise |
| `ParticleCanvas.Resize` | components/ParticleCanvas.tsx:28-66 | the canvas takes the viewport size and holds exactly 80 new particles below 768 px of width and 180 otherwise, each freshly spawned |
| `ParticleCanvas.EffectiveSpeed` | components/ParticleCanvas.tsx:83-91 | the frame speed. Its contract is stated by `ParticleCanvas.SpeedRule` |
| `ParticleCanvas.SpeedRule` | components/ParticleCanvas.tsx:81-91 | with a settings ref the speed is its multiplier plus 0.2·heartbeat, within ±0.1 of it; without one, 1 + 10p + 0.5·heartbeat, in [1.25, 11.75] |
| `ParticleCanvas.FillFor` | components/ParticleCanvas.tsx:93-101 | the frame-wide fill. Its contract is stated by `ParticleCanvas.ColourRule` |
| `ParticleCanvas.MultiColour` | components/ParticleCanvas.tsx:145-149 | one of gold, pink and blue: gold exactly above 0.66, blue exactly up to 0.33 |
| `ParticleCanvas.ColourRule` | components/ParticleCanvas.tsx:94-152 | blue, pink and white give fixed colours. Multicolor, and only it, picks per particle: gold above 0.66, blue up to 0.33, pink between. Yellow and default give pink past 40 % progress and gold otherwise |
| `ParticleCanvas.Wrap` | components/ParticleCanvas.tsx:113-117 | the result lies in the closed interval [0, bound]: on-axis values are kept, overshoot goes to 0, undershoot to the bound |
| `ParticleCanvas.Drift` | components/ParticleCanvas.tsx:108-111 | the warp drift is positive exactly above speed 3, where it exceeds 2.4, and 0 otherwise |
| `ParticleCanvas.Advance` | components/ParticleCanvas.tsx:104-117 | only the base position changes, and it ends on the canvas. Each coordinate moves by velocity times speed, and above speed 3 the vertical one also rises by 0.8 of the speed; a coordinate still on the canvas is kept, one past the far edge restarts at 0, one below 0 at the far edge |
| `ParticleCanvas.Repulsion` | components/ParticleCanvas.tsx:119-134 | no push without a pointer or at distance 250 or more |
| `ParticleCanvas.RepulsionLaw` | components/ParticleCanvas.tsx:122-133 | within the radius the push is 50·(250−d)/250, in (0, 50]. It points away from the pointer, and the offset's length is exactly the push |
| `ParticleCanvas.StepParticle` | components/ParticleCanvas.tsx:103-168 | only position and base change. Rendered position is base plus repulsion plus one vibration offset shared by both axes. Alpha is the opacity. Streaks iff speed > 4, otherwise a disc of radius size·(1 + 0.2·heartbeat). A solid fill is used as is. In multicolour mode each mark takes `MultiColour` of its own hue draw |
| `ParticleCanvas.WarpAndStreak` | components/ParticleCanvas.tsx:108-167 | warp drift applies iff speed > 3 and streaks iff speed > 4. A disc's radius lies between 1.1 and 1.3 times the size |
| `ParticleCanvas.FrameOf` | components/ParticleCanvas.tsx:71-101 | the frame uses the given canvas size, pointer and heartbeat. Its speed is the ref's multiplier plus 0.2·heartbeat, or 1 + 10p + 0.5·heartbeat without a ref. Its fill is blue, pink or white for those modes, per particle exactly for multicolor, and otherwise pink past 40 % of the scrollable height and gold before it |
| `ParticleCanvas.FrameSpeeds` | components/ParticleCanvas.tsx:78-91 | without a settings ref, whatever the heartbeat, particles streak past 35 % of the page and neither drift nor streak in the top 5 %, and the fill is solid; with a ref the speed is the multiplier plus 0.1 to 0.3 |
| `ParticleCanvas.Animate` | components/ParticleCanvas.tsx:69-172 | time advances by exactly 0.05; every particle is advanced with the same speed, stays on the canvas and is drawn once with its opacity; each particle and its mark are exactly one `StepParticle` under the frame-wide values of `FrameOf` (rendered position, streak or disc, colour) |
| `ParticleCanvas.AnimateKeepsSpawnRanges` | components/ParticleCanvas.tsx:103-117 | a frame keeps every particle's size, opacity and speeds in their spawn ranges and its base on the canvas |
| `ParticleCanvas.RepulsionNotAccumulated` | components/ParticleCanvas.tsx:119-140 | base positions after a frame are the same with or without a pointer: repulsion never reaches the base |
| `MemberCard.Interact` | components/MemberCard.tsx:13-20 | a click always turns the card over and calls `onFlip` exactly when it turns to the back |
| `MemberCard.Run` | components/MemberCard.tsx:13-20 | n clicks call `onFlip` at most n times |
| `MemberCard.TwiceRestores` | components/MemberCard.tsx:13-20 | two clicks restore the card with `onFlip` called exactly once between them |
| `MemberCard.RunAlternates` | components/MemberCard.tsx:11-20 | after n clicks the card shows its back iff it started on the back and n is even, or started on the front and n is odd |
| `MemberCard.TraceAlternates` | components/MemberCard.tsx:14-18 | consecutive states of any click sequence differ: there is no third state |
| `MemberCard.CallsAreRisingEdges` | components/MemberCard.tsx:14-16 | over any click sequence, `onFlip` calls equal the number of front-to-back steps |
| `MemberCard.CallCount` | components/MemberCard.tsx:11-16 | from a fresh card n clicks call `onFlip` (n+1)/2 times; from a flipped card n/2 times |
| `App.HandleNav` | App.tsx:329-383 | the menu always closes. HISTORIA, RIDER and AGENDA (and only they) show the construction view and jump to the top, with no deferred scroll. Any other action shows home and defers the scroll by 200 ms from another view and 500 ms on home |
| `App.NavSettles` | App.tsx:376-382 | repeating an action keeps the view it chose, and from home a scrolling action always waits 500 ms |
| `App.Perform` | App.tsx:363-373 | with GSAP, a tween to the target; without it, a native scroll to a numeric target or to 0; never a throw |
| `App.RunScrollAsWritten` | App.tsx:339-374 | the routine as written throws exactly for CONTACTO when the ScrollTrigger plugin is absent |
| `App.ContactTarget` | App.tsx:350-360 | CONTACTO goes to the footer pin's end when the trigger exists, and to "#contacto" otherwise |
| `App.Target` | App.tsx:343-372 | the target of each action. Its contract is stated by `App.ScrollTargets` |
| `App.RunScroll` | App.tsx:339-374 | the routine with the plugin check added never throws |
| `App.ScrollTargets` | App.tsx:343-372 | INICIO goes to 0, LA BANDA to "#banda", CONTACTO to the pin end or "#contacto", anything else to 0. GSAP tweens to the target; the native fallback sends a selector to 0 |
| `App.ContactThrowsWithoutPlugin` | App.tsx:341-352 | without the plugin, CONTACTO throws as written and goes to "#contacto" once corrected |
| `App.ContactTargetAsWritten` | App.tsx:350-360 | the contact lookup as written: no target, standing for the throw, when the plugin is absent. Its contract is stated by `App.RunScrollAsWritten` |
| `App.RunScrollAgrees` | App.tsx:339-374 | whenever the written routine does not throw, the corrected one does exactly the same |
| `App.Fire` | App.tsx:493-528 | a callback the trigger lacks keeps the settings. One it has writes its record. A sound is cued iff the trigger is a colour phase, the edge is onEnter and the page is not muted |
| `App.Written` | App.tsx:493-528 | the record each trigger callback writes. Its contract is stated by `App.PhaseTable` and `App.EnterBackMatchesEnter` |
| `App.EnterBackMatchesEnter` | App.tsx:496-520 | onEnter and onEnterBack of a phase write identical records, and onEnterBack plays nothing |
| `App.PhaseTable` | App.tsx:415-528 | the table: yellow (3, yellow, 1), blue (1.5, blue, 1), pink (5, pink, 1.5), banda (0, default, 0), footer enter (1.8, multicolor, 3), footer leave-back (2, default, 1). Phase entries cue the jazz chord, the ethereal swoosh and the party kick |
| `App.ReplayNonNegative` | App.tsx:43-47 | from the initial settings, any history of trigger callbacks leaves non-negative speed and density, equal to the start or to some record a callback wrote |
| `App.PhaseRenderModes` | App.tsx:493-521 | with the canvas's speed rule, only yellow and pink drift upward, only pink draws streaks, and the initial (0.5, yellow, 1) drifts never |
| `App.PlaySound` | App.tsx:71-79 | skipped iff there is no context or it is closed. A throwing sound function is swallowed. Otherwise the requested effect, and no other, is scheduled at the context's clock and is well formed there |
| `App.ToggleSound` | App.tsx:162-173 | the mute flag is negated. The reverse impact plays iff the new state is muted, the forward impact iff it is unmuted, each through the guard |
| `App.ToggleTwice` | App.tsx:162-173 | two toggles restore the flag and cue both effects, one each |
| `App.CueSound` | App.tsx:95-518 | the intro click plays the ethereal swoosh, the footer title the impact and the footer lines the ethereal swoosh, all regardless of mute |
| `App.MuteGates` | App.tsx:95-518 | muting silences exactly the phase entries, the card flip and the call-to-action swoosh, and leaves the intro and footer cues as they were. Unmuted, a phase cue matches its trigger's onEnter and the flip plays the click |

## Left out

- Web Audio graph construction and node wiring are not modelled. The model
  keeps the scheduled values as data: `Level` targets and `Sound` tracks.
- Noise buffers' random samples (`createNoiseBuffer` and the inline buffer
  fills) are left out because they are random. Only their lengths are kept.
- The exact values of the harmonic oscillator, the smoothing curve of
  `setTargetAtTime`, and audio output are left out. The model records targets,
  start times and time constants, not the signal.
- Canvas drawing calls and `requestAnimationFrame` pacing become `Mark`
  values and one `Animate` call per frame.
- DOM listeners (resize, mouse, touch, scroll) and the intro fade timer are
  left out. Their effect on the model is the parameters passed to each call.
- The unlock sequence's silent buffer is left out. Only its resume is
  modelled, in `Unlock`.
- GSAP tweens and their easing, confetti, `window.open`, and React rendering
  and markup are external libraries and UI. A tween is reduced to its target.
- `Math.sin`, `Math.cos`, `Math.sqrt` and `Math.random` are not modelled.
  They become given values with their ranges: heartbeat in [0.5, 1.5], wave,
  distance, uniform draws in [0, 1).
- IEEE float rounding, NaN and Infinity are not modelled. All quantities are
  exact reals.
- `AudioController.HandleScroll` and `AudioController.SyncMute` require a
  positive page height wherever they divide by it. The source divides
  unguarded and would produce NaN or Infinity.
- `AudioController.SyncMute`: the excluded zero page height is reachable. The
  construction view is one screen tall (App.tsx:819), so its scrollable
  height is 0. Unmuting there computes 0/0 (AudioController.tsx:33-35) and
  passes NaN to `setTargetAtTime` (:37), which the Web Audio API rejects
  with a TypeError inside the effect. For scroll positions above −50 the
  scroll handler does not suffer from this there, because the end-zone branch
  (AudioController.tsx:165-169) returns before the progress is used. NaN is not
  modelled, so this path is left out.
- `AudioController.HandleScroll`: an overscroll of 50 px or more on a page
  with zero scrollable height throws. The end-zone test (AudioController.tsx:165)
  then fails, the progress is −Infinity (:162), and `setTargetAtTime`
  rejects it with a TypeError. The rejected value is the volume (:174) when
  unmuted and the bass frequency (:179) always. The throw comes before the
  tempo is set (:182). Infinities are not modelled, and the model's
  requirement of a positive page height excludes this path.
- `ParticleCanvas.Repulsion` requires a non-zero distance inside the radius.
  The source divides by it unguarded.
- `ParticleCanvas.FrameOf` and `ParticleCanvas.Animate` require a positive
  page height for the same reason.
- `AudioController.Tick` requires a positive tempo. The source never checks
  it. For non-negative scroll positions every tempo is in [50, 150]
  (`ScrollKeepsValid`). A negative position can make it non-positive, and
  the loop then runs forever (see the finding below).
- `AudioController.Play` requires a positive tempo for the same reason.
- `AudioController.FillWindow` models the loop body's scheduling as the list
  of beat times. The per-beat schedule is `AudioController.BeatSound`.
- `App.PlaySound` models a throwing sound function as a boolean input. The
  parameters such a function may already have scheduled before it throws are
  not modelled.
- `ParticleCanvas.Animate` does not model the cosine argument
  `time * 2 + p.x`. The wave value for each particle is given.
- `AudioController.BeatSound` takes the bass frequency read at the start of
  the beat (`frequency.value`, AudioController.tsx:130) as a parameter. Its
  contract says the beat is well formed exactly when that value is positive.
  It does not derive the positivity from the engine: the read value is the
  oscillator's current, smoothed value, which the model does not track, and
  after an overscroll (see the finding below) the target it heads to can be
  non-positive.
- `App.CueSound` covers the cues of App.tsx: the intro click, the phase
  entries, the card flip, the call to action and the footer timeline. Where a cue fires (timeline
  `onStart`, the card's `onFlip` at App.tsx:730) is GSAP and React wiring and
  is not modelled.

## Findings

| source | as written | input that shows it | evidently intended | confidence | as-written member | corrected member |
|---|---|---|---|---|---|---|
| App.tsx:352 | the CONTACTO branch calls `window.ScrollTrigger.getById` without checking that the plugin is loaded, although the refresh at App.tsx:341 does check | action "CONTACTO" with the ScrollTrigger plugin absent: a TypeError is thrown inside the timeout and no scroll happens | an absent plugin means no footer trigger, so the scroll falls back to "#contacto" | not executed; follows from the code | `App.RunScrollAsWritten` (counterexample `App.ContactThrowsWithoutPlugin`) | `App.RunScroll` (proved by `App.RunScrollAgrees`) |
| components/AudioController.tsx:162 | the scroll progress is `min(scrollY / docHeight, 1)`, bounded above only, and the tempo `50 + 100·progress` (:182) feeds the beat period `60 / tempo` of the loop at :116 | an overscroll to scrollY = −60 on a page with 100 px to scroll: the tempo becomes −10 BPM, the period −6 s, and the loop's clock moves backwards, so the next tick never leaves the loop | progress in [0, 1], so the tempo stays in [50, 150] BPM | low; not executed: it needs an overscroll of at least half the scrollable height | `AudioController.HandleScroll` (counterexample `AudioController.OverscrollStallsScheduler`) | `AudioController.HandleScrollClamped` (proved by `AudioController.ClampedScrollKeepsValid`) |

=== FILE: app.dfy ===
/**
 The page shell's control decisions: navigation routing and the deferred
 scroll it schedules, the table of particle settings written by scroll
 triggers, the sounds those triggers and the mute button cue, and the guard
 around every sound effect.
 */
module App {
  import opened Wrappers
  import opened WebAudio
  import opened Sounds
  import opened ParticleCanvas

  // ---------------------------------------------------------------- navigation

  datatype View = Home | Construction

  /** The actions whose pages are not built yet. */
  predicate UnderConstruction(action: string) {
    action == "HISTORIA" || action == "RIDER" || action == "AGENDA"
  }

  /** What `handleNav` does at once: the view it leaves set, whether it closed
      the mobile menu, whether it jumped to the top of the page, and the delay
      in milliseconds after which it runs the deferred scroll, if it defers
      one. */
  datatype Nav = Nav(view: View, menuOpen: bool, jumpedToTop: bool, delay: Option<nat>)

  /** `handleNav`. */
  function HandleNav(view: View, action: string): (n: Nav)
    ensures !n.menuOpen
    ensures n.view == Construction <==> UnderConstruction(action)
    ensures n.jumpedToTop <==> n.delay.None?
    ensures n.delay.Some? <==> !UnderConstruction(action)
    ensures n.delay.Some? ==> n.delay.value == (if view == Home then 500 else 200)
  {
    if UnderConstruction(action) then Nav(Construction, false, true, None)
    else if view != Home then Nav(Home, false, false, Some(200))
    else Nav(Home, false, false, Some(500))
  }

  /** Navigating is settled after one step: the same action again from where
      it left the page leads to the same view, and a scrolling action taken on
      the home page always waits for the menu's 500 ms exit. */
  lemma NavSettles(view: View, action: string)
    ensures HandleNav(HandleNav(view, action).view, action).view == HandleNav(view, action).view
    ensures !UnderConstruction(action) ==> HandleNav(HandleNav(view, action).view, action).delay == Some(500)
    ensures HandleNav(view, action).delay.Some? ==> HandleNav(view, action).delay.value >= 200
  {
  }

  /** Where the deferred scroll goes: a pixel offset, or a CSS selector that
      the GSAP scroll plugin resolves. */
  datatype ScrollTarget = Offset(y: real) | Selector(selector: string)

  /** Whether the ScrollTrigger plugin is loaded and, if so, the end offset
      of the trigger with id "footer-pin" when one is registered. */
  datatype ScrollTriggerState = Absent | Loaded(footerPinEnd: Option<real>)

  /** The deferred scroll: a 1.5 s GSAP tween to the target, a native smooth
      scroll to a pixel offset when GSAP is missing, or an uncaught exception. */
  datatype ScrollOutcome = Tween(target: ScrollTarget) | Jump(top: real) | Thrown

  /** The deferred scroll once a target is chosen: GSAP takes any target; the
      native fallback only takes a numeric one and goes to 0 otherwise. */
  function Perform(target: ScrollTarget, gsap: bool): (r: ScrollOutcome)
    ensures !r.Thrown?
    ensures gsap <==> r.Tween?
    ensures r.Tween? ==> r.target == target
    ensures r.Jump? ==> r.top == (if target.Offset? then target.y else 0.0)
  {
    if gsap then Tween(target)
    else Jump(match target case Offset(y) => y case Selector(_) => 0.0)
  }

  /** The contact target as written: the plugin is dereferenced to look the
      footer trigger up without checking that it is loaded. */
  function ContactTargetAsWritten(st: ScrollTriggerState): Option<ScrollTarget> {
    match st
    case Absent => None
    case Loaded(Some(end)) => Some(Offset(end))
    case Loaded(None) => Some(Selector("#contacto"))
  }

  /** `runScroll` as written: the target of each action, then the scroll.
      With the plugin absent, CONTACTO throws before any scroll. */
  function RunScrollAsWritten(action: string, gsap: bool, st: ScrollTriggerState): (r: ScrollOutcome)
    ensures r.Thrown? <==> action == "CONTACTO" && st.Absent?
  {
    if action == "INICIO" then Perform(Offset(0.0), gsap)
    else if action == "LA BANDA" then Perform(Selector("#banda"), gsap)
    else if action == "CONTACTO" then
      match ContactTargetAsWritten(st)
      case None => Thrown
      case Some(target) => Perform(target, gsap)
    else Perform(Offset(0.0), gsap)
  }

  /** The contact target with the missing plugin read as "no footer trigger",
      as the guard on the plugin's refresh just before it does. */
  function ContactTarget(st: ScrollTriggerState): (t: ScrollTarget)
    ensures st.Loaded? && st.footerPinEnd.Some? <==> t.Offset?
    ensures t.Offset? ==> t.y == st.footerPinEnd.value
    ensures t.Selector? ==> t.selector == "#contacto"
  {
    match st
    case Loaded(Some(end)) => Offset(end)
    case _ => Selector("#contacto")
  }

  /** The target each action scrolls to. */
  function Target(action: string, st: ScrollTriggerState): ScrollTarget {
    if action == "INICIO" then Offset(0.0)
    else if action == "LA BANDA" then Selector("#banda")
    else if action == "CONTACTO" then ContactTarget(st)
    else Offset(0.0)
  }

  /** `runScroll`, with the plugin check added to the footer lookup. */
  function RunScroll(action: string, gsap: bool, st: ScrollTriggerState): (r: ScrollOutcome)
    ensures !r.Thrown?
  {
    Perform(Target(action, st), gsap)
  }

  /** The routing table: the start of the page, the band section, the end of
      the pinned footer (or its anchor), and the top for anything else; the
      native fallback keeps only numeric targets. */
  lemma ScrollTargets(action: string, gsap: bool, st: ScrollTriggerState)
    ensures action == "INICIO" ==> Target(action, st) == Offset(0.0)
    ensures action == "LA BANDA" ==> Target(action, st) == Selector("#banda")
    ensures action == "CONTACTO" && st == Loaded(None) ==> Target(action, st) == Selector("#contacto")
    ensures action == "CONTACTO" && st.Loaded? && st.footerPinEnd.Some? ==>
      Target(action, st) == Offset(st.footerPinEnd.value)
    ensures action !in {"INICIO", "LA BANDA", "CONTACTO"} ==> Target(action, st) == Offset(0.0)
    ensures gsap ==> RunScroll(action, gsap, st) == Tween(Target(action, st))
    ensures !gsap && action == "LA BANDA" ==> RunScroll(action, gsap, st) == Jump(0.0)
  {
  }

  /** The as-written routine crashes on the contact action whenever the
      plugin failed to load, with or without GSAP. */
  lemma ContactThrowsWithoutPlugin(gsap: bool)
    ensures RunScrollAsWritten("CONTACTO", gsap, Absent) == Thrown
    ensures RunScroll("CONTACTO", gsap, Absent) == Perform(Selector("#contacto"), gsap)
  {
  }

  /** The corrected routine does exactly what the written one does whenever
      the written one does not throw. */
  lemma RunScrollAgrees(action: string, gsap: bool, st: ScrollTriggerState)
    ensures !RunScrollAsWritten(action, gsap, st).Thrown? ==>
      RunScroll(action, gsap, st) == RunScrollAsWritten(action, gsap, st)
  {
  }

  // ---------------------------------------------------------------- phases

  /** The settings the page starts with. */
  const InitialSettings: ParticleSettings := ParticleSettings(0.5, Yellow, 1.0)

  /** The scroll triggers that write the shared particle settings. */
  datatype Trigger = PhaseYellow | PhaseBlue | PhasePink | BandaSection | FooterPin

  /** The ScrollTrigger callbacks. */
  datatype Edge = OnEnter | OnLeave | OnEnterBack | OnLeaveBack

  predicate IsPhase(tr: Trigger) {
    tr == PhaseYellow || tr == PhaseBlue || tr == PhasePink
  }

  /** The record a trigger's callback writes, if it has that callback. */
  function Written(tr: Trigger, edge: Edge): Option<ParticleSettings> {
    match (tr, edge)
    case (PhaseYellow, OnEnter) | (PhaseYellow, OnEnterBack) => Some(ParticleSettings(3.0, Yellow, 1.0))
    case (PhaseBlue, OnEnter) | (PhaseBlue, OnEnterBack) => Some(ParticleSettings(1.5, Blue, 1.0))
    case (PhasePink, OnEnter) | (PhasePink, OnEnterBack) => Some(ParticleSettings(5.0, Pink, 1.5))
    case (BandaSection, OnEnter) => Some(ParticleSettings(0.0, Default, 0.0))
    case (FooterPin, OnEnter) => Some(ParticleSettings(1.8, Multicolor, 3.0))
    case (FooterPin, OnLeaveBack) => Some(ParticleSettings(2.0, Default, 1.0))
    case _ => None
  }

  /** The sound a phase's entry plays, when not muted. */
  function PhaseSound(tr: Trigger): Option<SoundKind> {
    match tr
    case PhaseYellow => Some(JazzChord)
    case PhaseBlue => Some(EtherealSwoosh)
    case PhasePink => Some(PartyKick)
    case _ => None
  }

  /** One trigger callback: the settings it leaves and the sound it cues. */
  function Fire(tr: Trigger, edge: Edge, current: ParticleSettings, muted: bool): (r: (ParticleSettings, Option<SoundKind>))
    ensures Written(tr, edge).None? ==> r.0 == current
    ensures Written(tr, edge).Some? ==> r.0 == Written(tr, edge).value
    ensures r.1.Some? <==> IsPhase(tr) && edge == OnEnter && !muted
  {
    (Written(tr, edge).GetOr(current), if edge == OnEnter && !muted then PhaseSound(tr) else None)
  }

  /** Entering a phase from above or from below writes the same record, and
      only the first (not muted) plays the phase's sound. */
  lemma EnterBackMatchesEnter(tr: Trigger, s1: ParticleSettings, s2: ParticleSettings, m1: bool, m2: bool)
    requires IsPhase(tr)
    ensures Fire(tr, OnEnter, s1, m1).0 == Fire(tr, OnEnterBack, s2, m2).0
    ensures Fire(tr, OnEnterBack, s2, m2).1.None?
  {
  }

  /** The phase table as the page lays it out. */
  lemma PhaseTable(s: ParticleSettings, m: bool)
    ensures Fire(PhaseYellow, OnEnter, s, m).0 == ParticleSettings(3.0, Yellow, 1.0)
    ensures Fire(PhaseBlue, OnEnter, s, m).0 == ParticleSettings(1.5, Blue, 1.0)
    ensures Fire(PhasePink, OnEnter, s, m).0 == ParticleSettings(5.0, Pink, 1.5)
    ensures Fire(BandaSection, OnEnter, s, m).0 == ParticleSettings(0.0, Default, 0.0)
    ensures Fire(FooterPin, OnEnter, s, m).0 == ParticleSettings(1.8, Multicolor, 3.0)
    ensures Fire(FooterPin, OnLeaveBack, s, m).0 == ParticleSettings(2.0, Default, 1.0)
    ensures Fire(BandaSection, OnEnterBack, s, m).0 == s
    ensures !m ==> Fire(PhaseYellow, OnEnter, s, m).1 == Some(JazzChord)
    ensures !m ==> Fire(PhaseBlue, OnEnter, s, m).1 == Some(EtherealSwoosh)
    ensures !m ==> Fire(PhasePink, OnEnter, s, m).1 == Some(PartyKick)
  {
  }

  /** Settings with no negative speed or density. */
  predicate NonNegative(s: ParticleSettings) {
    s.speedMultiplier >= 0.0 && s.densityMultiplier >= 0.0
  }

  /** The shared settings after a run of trigger callbacks. */
  function Replay(s: ParticleSettings, events: seq<(Trigger, Edge)>, muted: bool): ParticleSettings
    decreases |events|
  {
    if events == [] then s
    else Replay(Fire(events[0].0, events[0].1, s, muted).0, events[1..], muted)
  }

  /** Whatever the scroll history, the particle speed and density the
      triggers leave are never negative, and the last record written wins. */
  lemma {:induction false} ReplayNonNegative(s: ParticleSettings, events: seq<(Trigger, Edge)>, muted: bool)
    requires NonNegative(s)
    ensures NonNegative(Replay(s, events, muted))
    ensures Replay(s, events, muted) == s ||
      exists i | 0 <= i < |events| :: Written(events[i].0, events[i].1) == Some(Replay(s, events, muted))
    decreases |events|
  {
    if events != [] {
      var next := Fire(events[0].0, events[0].1, s, muted).0;
      ReplayNonNegative(next, events[1..], muted);
      var r := Replay(s, events, muted);
      if r == next && r != s {
        assert Written(events[0].0, events[0].1) == Some(r);
      } else if r != next {
        var i :| 0 <= i < |events[1..]| && Written(events[1..][i].0, events[1..][i].1) == Some(r);
        assert events[1..][i] == events[i + 1];
      }
    }
  }

  /** What each phase does to the particles under the canvas's speed rule
      (the settings ref is always present here), for any heartbeat: the
      yellow phase alone drifts upward yet still draws discs, the pink phase
      alone draws streaks; every other record, and the initial one, is below
      warp speed. */
  lemma PhaseRenderModes(tr: Trigger, edge: Edge, progress: real, heartbeat: real)
    requires Written(tr, edge).Some?
    requires 0.5 <= heartbeat <= 1.5
    ensures var speed := EffectiveSpeed(Written(tr, edge), progress, heartbeat);
      && (Drift(speed) > 0.0 <==> tr == PhaseYellow || tr == PhasePink)
      && (speed > 4.0 <==> tr == PhasePink)
    ensures Drift(EffectiveSpeed(Some(InitialSettings), progress, heartbeat)) == 0.0
    ensures NonNegative(InitialSettings)
  {
    SpeedRule(Written(tr, edge), progress, heartbeat);
    SpeedRule(Some(InitialSettings), progress, heartbeat);
  }

  // ---------------------------------------------------------------- sounds

  datatype ContextState = Running | Suspended | Closed

  /** The shared audio context: its state and its clock. */
  datatype Context = Context(state: ContextState, currentTime: real)

  /** `playSound`: skipped without a usable context; a sound function that
      throws is caught and logged, never propagated; otherwise the sound is
      scheduled from the context's current time. */
  datatype PlayOutcome = Played(sound: Sound, at: real) | Skipped | Swallowed

  function PlaySound(ctx: Option<Context>, kind: SoundKind, throws: bool): (r: PlayOutcome)
    ensures r.Skipped? <==> ctx.None? || ctx.value.state == Closed
    ensures r.Swallowed? <==> !r.Skipped? && throws
    ensures r.Played? ==> r.at == ctx.value.currentTime
    ensures r.Played? ==> r.sound == Render(kind, r.at)
    ensures r.Played? ==> WellFormed(r.sound, r.at, Span(kind))
  {
    match ctx
    case None => Skipped
    case Some(c) =>
      if c.state == Closed then Skipped
      else if throws then Swallowed
      else
        RenderWellFormed(kind, c.currentTime);
        Played(Render(kind, c.currentTime), c.currentTime)
  }

  /** `toggleSound`: the new mute flag, the effect it cues and what playing
      it did. */
  function ToggleSound(muted: bool, ctx: Option<Context>, throws: bool): (r: (bool, SoundKind, PlayOutcome))
    ensures r.0 == !muted
    ensures r.1 == ReverseImpact <==> r.0
    ensures r.1 == ForwardImpact <==> !r.0
    ensures r.2 == PlaySound(ctx, r.1, throws)
  {
    var next := !muted;
    var kind := if next then ReverseImpact else ForwardImpact;
    (next, kind, PlaySound(ctx, kind, throws))
  }

  /** Toggling twice restores the flag, and the two clicks cue the two
      opposite effects. */
  lemma ToggleTwice(muted: bool, ctx: Option<Context>, throws: bool)
    ensures ToggleSound(ToggleSound(muted, ctx, throws).0, ctx, throws).0 == muted
    ensures {ToggleSound(muted, ctx, throws).1, ToggleSound(ToggleSound(muted, ctx, throws).0, ctx, throws).1}
            == {ReverseImpact, ForwardImpact}
  {
  }

  /** The other places that cue a sound. */
  datatype Cue =
    | Intro              // the start overlay's click, once the audio context exists
    | PhaseEntered(trigger: Trigger)
    | CardFlipped        // a member card's onFlip
    | CallToAction       // the footer's final button appears
    | FooterTitle        // the footer's background title starts
    | FooterLine         // a footer line appears

  /** The effect a cue plays. Mute gates the phase entries, the card flip and
      the call to action; the intro swoosh and the footer timeline's title and
      lines play anyway. */
  function CueSound(cue: Cue, muted: bool): (r: Option<SoundKind>)
    ensures cue.Intro? ==> r == Some(EtherealSwoosh)
    ensures cue.FooterTitle? ==> r == Some(ImpactBoom)
    ensures cue.FooterLine? ==> r == Some(EtherealSwoosh)
  {
    match cue
    case Intro => Some(EtherealSwoosh)
    case PhaseEntered(tr) => if muted then None else PhaseSound(tr)
    case CardFlipped => if muted then None else Some(FlipClick)
    case CallToAction => if muted then None else Some(DeepSwoosh)
    case FooterTitle => Some(ImpactBoom)
    case FooterLine => Some(EtherealSwoosh)
  }

  /** Muting silences exactly the gated cues, and leaves the rest as they
      were; a phase cue agrees with the trigger's own entry callback. */
  lemma MuteGates(cue: Cue, s: ParticleSettings)
    ensures CueSound(cue, true).None? <==> !(cue.Intro? || cue.FooterTitle? || cue.FooterLine?)
    ensures cue.Intro? || cue.FooterTitle? || cue.FooterLine? ==> CueSound(cue, true) == CueSound(cue, false)
    ensures cue.PhaseEntered? && IsPhase(cue.trigger) ==>
      CueSound(cue, false) == Fire(cue.trigger, OnEnter, s, false).1
    ensures cue.CardFlipped? ==> CueSound(cue, false) == Some(FlipClick)
    ensures cue.CallToAction? ==> CueSound(cue, false) == Some(DeepSwoosh)
  {
  }
}

=== FILE: audio_controller.dfy ===
/**
 The rhythm bed: a long-lived two-oscillator drone whose gain is pulsed on
 every beat by a lookahead scheduler, with volume, bass pitch and tempo
 derived from scroll progress, and a master gain that follows the mute flag.
 The audio clock, the scroll position and the page height are parameters;
 the Web Audio graph is reduced to the targets its parameters are heading to.
 */
module AudioController {
  import opened Wrappers
  import opened WebAudio
  import Scroll

  /** Seconds of audio the scheduler fills ahead of the audio clock. */
  const Lookahead: real := 0.1
  /** Delay of the first beat after playback starts, in seconds. */
  const StartDelay: real := 0.1
  /** Within this many pixels of the page end the bed fades out. */
  const EndMargin: real := 50.0

  /** An AudioParam heading to `target` from time `since` with the given
      smoothing time constant (`setTargetAtTime`); a time constant of 0 is a
      direct assignment of `.value`. */
  datatype Level = Level(target: real, since: real, timeConstant: real)

  /** The audio context and the long-lived nodes, which `initAudio` creates
      together: the master gain and the bass oscillator's frequency. The
      harmonic oscillator (100 Hz triangle at gain 0.2) is never modulated. */
  datatype Graph = Graph(suspended: bool, master: Level, bass: Level)

  /** The controller's refs: the graph once initialized, the mute flag as seen
      by event handlers, the scheduler clock, the tempo in BPM, and whether an
      animation frame is pending for the scheduler. */
  datatype Engine = Engine(graph: Option<Graph>, muted: bool, nextNoteTime: real, tempo: real, ticking: bool)

  /** The refs on mount: no graph, the mute flag taken from the prop, clock at
      0, 50 BPM, no tick pending. */
  function Mounted(muted: bool): (e: Engine)
    ensures e.graph.None? && !e.ticking && e.tempo == 50.0
    ensures e.muted == muted && e.nextNoteTime == 0.0
  {
    Engine(None, muted, 0.0, 50.0, false)
  }

  // The three scroll mappings, for a progress p in [0, 1].
  function Volume(p: real): real { 0.15 + p * 0.4 }
  function BassFrequency(p: real): real { 50.0 + p * 40.0 }
  function Tempo(p: real): real { 50.0 + p * 100.0 }

  /** The ranges every engine reached through non-negative scroll positions
      stays in: 50 to 150 BPM, a master gain target in [0, 0.55] and a bass
      target in [50, 90] Hz. */
  ghost predicate Valid(e: Engine) {
    && 50.0 <= e.tempo <= 150.0
    && (e.graph.Some? ==>
          && 0.0 <= e.graph.value.master.target <= 0.55
          && 50.0 <= e.graph.value.bass.target <= 90.0)
  }

  /** Mute sync: the handler-visible flag follows the prop; with a graph, a
      mute fades the master gain to 0 and an unmute restores the scroll volume,
      both with a 0.1 s time constant. The scheduler is left alone, so beats
      keep advancing in silence. Only the unmute branch divides by the page
      height. */
  function SyncMute(e: Engine, muted: bool, scrollY: real, docHeight: real, now: real): (e': Engine)
    requires e.graph.Some? && !muted ==> docHeight > 0.0
    ensures e'.muted == muted
    ensures e'.nextNoteTime == e.nextNoteTime && e'.tempo == e.tempo && e'.ticking == e.ticking
    ensures e'.graph.Some? <==> e.graph.Some?
    ensures e.graph.None? ==> e' == e.(muted := muted)
    ensures e.graph.Some? ==>
      && e'.graph.value.bass == e.graph.value.bass
      && e'.graph.value.suspended == e.graph.value.suspended
      && e'.graph.value.master.since == now
      && e'.graph.value.master.timeConstant == 0.1
    ensures e.graph.Some? && muted ==> e'.graph.value.master.target == 0.0
    ensures e.graph.Some? && !muted && scrollY >= 0.0 ==> 0.15 <= e'.graph.value.master.target <= 0.55
  {
    match e.graph
    case None => e.(muted := muted)
    case Some(g) =>
      var target := if muted then 0.0 else Volume(Scroll.Progress(scrollY, docHeight));
      e.(muted := muted, graph := Some(g.(master := Level(target, now, 0.1))))
  }

  /** The scroll handler. Before initialization it does nothing. Within the
      last 50 px it fades the master gain to 0 (time constant 0.2 s) whatever
      the mute state and returns, leaving pitch and tempo as they were.
      Otherwise it sets the bass target and the tempo from the progress, and
      the master target too unless muted. The page height is only divided by
      outside the end zone, which is where the source needs it positive. */
  function HandleScroll(e: Engine, scrollY: real, docHeight: real, now: real): (e': Engine)
    requires e.graph.Some? && scrollY <= docHeight - EndMargin ==> docHeight > 0.0
    ensures e'.muted == e.muted && e'.nextNoteTime == e.nextNoteTime && e'.ticking == e.ticking
    ensures e'.graph.Some? <==> e.graph.Some?
    ensures e.graph.None? ==> e' == e
    ensures e.graph.Some? ==> e'.graph.value.suspended == e.graph.value.suspended
    ensures e.graph.Some? && scrollY > docHeight - EndMargin ==>
      && e'.graph.value.master == Level(0.0, now, 0.2)
      && e'.graph.value.bass == e.graph.value.bass
      && e'.tempo == e.tempo
    ensures e.graph.Some? && scrollY <= docHeight - EndMargin ==>
      var p := Scroll.Progress(scrollY, docHeight);
      && e'.tempo == Tempo(p)
      && e'.graph.value.bass == Level(BassFrequency(p), now, 0.1)
      && e'.graph.value.master == (if e.muted then e.graph.value.master else Level(Volume(p), now, 0.1))
    ensures e.graph.Some? && 0.0 <= scrollY <= docHeight - EndMargin ==>
      && 50.0 <= e'.tempo < 150.0
      && 50.0 <= e'.graph.value.bass.target < 90.0
      && (!e.muted ==> 0.15 <= e'.graph.value.master.target < 0.55)
    ensures e.muted && e.graph.Some? ==>
      e'.graph.value.master == e.graph.value.master || e'.graph.value.master.target == 0.0
  {
    match e.graph
    case None => e
    case Some(g) =>
      if scrollY > docHeight - EndMargin then FadeOut(e, g, now)
      else Follow(e, g, Scroll.Progress(scrollY, docHeight), now)
  }

  /** The end-zone branch of the scroll handler. */
  function FadeOut(e: Engine, g: Graph, now: real): Engine {
    e.(graph := Some(g.(master := Level(0.0, now, 0.2))))
  }

  /** The main branch of the scroll handler for a progress `p`. */
  function Follow(e: Engine, g: Graph, p: real, now: real): Engine {
    var master := if e.muted then g.master else Level(Volume(p), now, 0.1);
    e.(graph := Some(g.(master := master, bass := Level(BassFrequency(p), now, 0.1))), tempo := Tempo(p))
  }

  /** The scroll handler with the progress also bounded below, so that an
      overscroll above the top of the page counts as the top. It agrees with
      the handler as written at every non-negative position. */
  function HandleScrollClamped(e: Engine, scrollY: real, docHeight: real, now: real): (e': Engine)
    requires e.graph.Some? && scrollY <= docHeight - EndMargin ==> docHeight > 0.0
    ensures scrollY >= 0.0 ==> e' == HandleScroll(e, scrollY, docHeight, now)
    ensures e'.graph.Some? <==> e.graph.Some?
    ensures e.graph.Some? && scrollY <= docHeight - EndMargin ==>
      && 50.0 <= e'.tempo <= 150.0
      && 50.0 <= e'.graph.value.bass.target <= 90.0
      && (!e.muted ==> 0.15 <= e'.graph.value.master.target <= 0.55)
  {
    match e.graph
    case None => e
    case Some(g) =>
      if scrollY > docHeight - EndMargin then FadeOut(e, g, now)
      else Follow(e, g, Scroll.ClampedProgress(scrollY, docHeight), now)
  }

  /** `initAudio`: a no-op once initialized; otherwise it creates the context
      (suspended or not, as the platform decides), sets the master gain to 0
      when muted and 0.1 otherwise, and the bass oscillator to 50 Hz. */
  function Init(e: Engine, now: real, startsSuspended: bool): (e': Engine)
    ensures e'.graph.Some?
    ensures e.graph.Some? ==> e' == e
    ensures e.graph.None? ==>
      && e' == e.(graph := e'.graph)
      && e'.graph.value.master == Level(if e.muted then 0.0 else 0.1, now, 0.0)
      && e'.graph.value.bass == Level(50.0, now, 0.0)
  {
    if e.graph.Some? then e
    else e.(graph := Some(Graph(startsSuspended, Level(if e.muted then 0.0 else 0.1, now, 0.0), Level(50.0, now, 0.0))))
  }

  /** The platform unlock: resume a suspended context (the silent buffer it
      also plays has no modelled effect). */
  function Unlock(e: Engine): (e': Engine)
    ensures e.graph.Some? ==> e'.graph == Some(e.graph.value.(suspended := false))
    ensures e.graph.None? ==> e' == e
    ensures e' == e.(graph := e'.graph)
  {
    match e.graph
    case Some(g) => if g.suspended then e.(graph := Some(g.(suspended := false))) else e
    case None => e
  }

  /** Stopping playback cancels the pending frame and suspends the context;
      the clock, the tempo and the levels are kept. */
  function Stop(e: Engine): (e': Engine)
    ensures !e'.ticking
    ensures e'.graph.Some? <==> e.graph.Some?
    ensures e.graph.Some? ==> e'.graph == Some(e.graph.value.(suspended := true))
    ensures e' == e.(graph := e'.graph, ticking := false)
  {
    match e.graph
    case Some(g) => e.(graph := Some(g.(suspended := true)), ticking := false)
    case None => e.(ticking := false)
  }

  /** The three parameter tracks of one beat as scheduled from time 0: the
      rhythm gain envelope is cancelled, reset to 0, raised to 1 in 10 ms and
      decays to 0.001 by 250 ms; the bass is kicked 40 Hz above its current
      value `bassNow` and falls back over 100 ms; a noise click at gain 0.05
      decays over 50 ms. */
  function Envelope(): Track {
    Track(Param("rhythmGain", Gain),
          [Cancel(0.0), SetValue(0.0, 0.0), LinearRamp(1.0, 0.01), ExponentialRamp(0.001, 0.25)])
  }

  function Kick(bassNow: real): Track {
    Track(Param("oscLow", Frequency), [SetValue(bassNow + 40.0, 0.0), ExponentialRamp(bassNow, 0.1)])
  }

  function Click(): Track {
    Track(Param("noiseEnvelope", Gain), [SetValue(0.05, 0.0), ExponentialRamp(0.001, 0.05)])
  }

  /** One beat as scheduled from time 0, with the 2 s noise buffer stopped
      after 50 ms. */
  function BeatScore(bassNow: real): Sound {
    Sound([Envelope(), Kick(bassNow), Click()], [Source("noise", Noise(2.0), 0.0, Some(0.05))])
  }

  lemma EnvelopeWellFormed()
    ensures TrackWellFormed(Envelope(), 0.0, 0.25)
  {
  }

  lemma ClickWellFormed()
    ensures TrackWellFormed(Click(), 0.0, 0.25)
  {
  }

  /** The kick ramps back to the current bass frequency exponentially, so it
      is well formed exactly when that frequency is positive. */
  lemma KickWellFormed(bassNow: real)
    ensures TrackWellFormed(Kick(bassNow), 0.0, 0.25) <==> bassNow > 0.0
  {
    assert RampWellDefined(Kick(bassNow).events, 1) <==> bassNow > 0.0;
  }

  /** The beat's score is well formed exactly when the current bass frequency
      is positive. */
  lemma BeatScoreWellFormed(bassNow: real)
    ensures WellFormed(BeatScore(bassNow), 0.0, 0.25) <==> bassNow > 0.0
  {
    EnvelopeWellFormed();
    ClickWellFormed();
    KickWellFormed(bassNow);
    var s := BeatScore(bassNow);
    assert s.tracks[1] == Kick(bassNow);
    assert SourceWithin(s.sources[0], 0.0, 0.25);
  }

  /** The beat at time `t`, as the loop schedules it. Its schedule is well
      formed within 0.25 s exactly when the current bass frequency is
      positive. */
  function BeatSound(t: real, bassNow: real): (s: Sound)
    ensures WellFormed(s, t, 0.25) <==> bassNow > 0.0
  {
    BeatScoreWellFormed(bassNow);
    ShiftWellFormedIff(BeatScore(bassNow), 0.0, 0.25, t);
    Shift(BeatScore(bassNow), t)
  }

  /** Number of beats of spacing `spb` that still fit in a gap of `gap` seconds. */
  function Steps(gap: real, spb: real): nat
    requires spb > 0.0
  {
    if gap <= 0.0 then 0 else (gap / spb).Floor as nat + 1
  }

  /** Scaling by a positive factor keeps a strict order. */
  lemma MulMonotone(a: real, b: real, s: real)
    ensures s > 0.0 && a > b ==> a * s > b * s
  {
  }

  /** Real division has a unique quotient. */
  lemma DivUnique(x: real, y: real, s: real)
    requires s > 0.0 && y * s == x
    ensures x / s == y
  {
  }

  /** One more beat leaves one fewer to fit in the gap. */
  lemma StepsDecrease(gap: real, spb: real)
    requires spb > 0.0 && gap > 0.0
    ensures Steps(gap - spb, spb) < Steps(gap, spb)
  {
    var q := gap / spb;
    assert q * spb == gap;
    assert (q - 1.0) * spb == gap - spb;
    DivUnique(gap - spb, q - 1.0, spb);
    assert (q - 1.0).Floor == q.Floor - 1;
  }

  /** The beats form the arithmetic progression `start + i * spb`. */
  ghost predicate Progression(beats: seq<real>, start: real, spb: real) {
    forall i | 0 <= i < |beats| :: beats[i] == start + i as real * spb
  }

  /** Every beat lies in the lookahead window [now, now + 0.1). */
  ghost predicate InWindow(beats: seq<real>, now: real) {
    forall i | 0 <= i < |beats| :: now <= beats[i] < now + Lookahead
  }

  /** The time of the first beat of a tick: the stored clock, caught up to the
      audio clock when it has fallen behind. */
  function Start(e: Engine, now: real): (s: real)
    ensures s >= now && s >= e.nextNoteTime
    ensures s == e.nextNoteTime || s == now
  {
    if e.nextNoteTime < now then now else e.nextNoteTime
  }

  /** The scheduling loop of `scheduleBeat`: starting from `start`, which is
      not in the past, emit beats `spb` apart while they fall before the
      lookahead horizon `now + 0.1`. It stops at the first beat time past the
      horizon, so no beat is skipped and none lies outside the window. */
  method FillWindow(start: real, spb: real, now: real) returns (beats: seq<real>, next: real)
    requires spb > 0.0 && start >= now
    ensures Progression(beats, start, spb) && InWindow(beats, now)
    ensures next == start + |beats| as real * spb
    ensures next >= now + Lookahead
  {
    next := start;
    beats := [];
    while next < now + Lookahead
      invariant next >= start
      invariant next == start + |beats| as real * spb
      invariant Progression(beats, start, spb)
      invariant InWindow(beats, now)
      decreases Steps(now + Lookahead - next, spb)
    {
      StepsDecrease(now + Lookahead - next, spb);
      assert (|beats| + 1) as real * spb == |beats| as real * spb + spb;
      beats := beats + [next];
      next := next + spb;
    }
  }

  /** `scheduleBeat`, one tick of the lookahead scheduler. Without a graph it
      returns without requesting another frame. Otherwise it reads the tempo
      once, catches the clock up to `now`, and emits beats spaced exactly
      `60 / tempo` apart while they fall before `now + 0.1`; then it requests
      the next frame. A clock that has fallen behind is not replayed: the
      beats it missed are dropped and the grid restarts at `now`. Nothing is scheduled in the past, the clock never moves
      back, and after the tick it lies at or past the lookahead horizon. The
      source does not guard the tempo; a positive one is what makes the loop
      terminate. */
  method Tick(e: Engine, now: real) returns (e': Engine, beats: seq<real>)
    requires e.graph.Some? ==> e.tempo > 0.0
    ensures e' == e.(nextNoteTime := e'.nextNoteTime, ticking := e'.ticking)
    ensures e.graph.None? ==> beats == [] && e' == e.(ticking := false)
    ensures e.graph.Some? ==>
      && e'.ticking
      && e'.nextNoteTime >= e.nextNoteTime
      && e'.nextNoteTime >= now + Lookahead
      && e'.nextNoteTime == Start(e, now) + |beats| as real * (60.0 / e.tempo)
      && InWindow(beats, now)
      && Progression(beats, Start(e, now), 60.0 / e.tempo)
      && (|beats| > 0 ==> beats[0] == Start(e, now))
      && (forall i | 0 < i < |beats| :: beats[i] - beats[i - 1] == 60.0 / e.tempo)
      && (e.tempo <= 600.0 ==> |beats| <= 1)
      && (e.nextNoteTime >= now + Lookahead ==> beats == [])
      && (e.nextNoteTime < now ==> |beats| > 0 && beats[0] == now)
  {
    if e.graph.None? {
      return e.(ticking := false), [];
    }
    var secondsPerBeat := 60.0 / e.tempo;
    var next := e.nextNoteTime;
    if next < now {
      next := now;
    }
    beats, next := FillWindow(next, secondsPerBeat, now);
    TickSpacing(e, now, beats);
    if e.nextNoteTime < now {
      Restart(|beats|, now, secondsPerBeat, next);
    }
    e' := e.(nextNoteTime := next, ticking := true);
  }

  /** Consecutive beats of one tick are exactly one beat period apart, and at
      any tempo up to 600 BPM (so over the whole 50 to 150 BPM range) a tick
      emits at most one beat. */
  lemma TickSpacing(e: Engine, now: real, beats: seq<real>)
    requires e.tempo > 0.0
    requires InWindow(beats, now)
    requires Progression(beats, Start(e, now), 60.0 / e.tempo)
    ensures forall i | 0 < i < |beats| :: beats[i] - beats[i - 1] == 60.0 / e.tempo
    ensures e.tempo <= 600.0 ==> |beats| <= 1
  {
    var spb := 60.0 / e.tempo;
    ProgressionSpacing(beats, Start(e, now), spb);
    if |beats| > 1 {
      assert now <= beats[0] && beats[1] < now + Lookahead;
      assert beats[1] - beats[0] == spb;
      assert spb < Lookahead;
      assert spb * e.tempo == 60.0;
      MulMonotone(Lookahead, spb, e.tempo);
      assert e.tempo > 600.0;
    }
  }

  /** In an arithmetic progression, neighbours are one step apart. */
  lemma ProgressionSpacing(beats: seq<real>, start: real, spb: real)
    requires Progression(beats, start, spb)
    ensures forall i | 0 < i < |beats| :: beats[i] - beats[i - 1] == spb
  {
    forall i | 0 < i < |beats| ensures beats[i] - beats[i - 1] == spb {
      assert beats[i] == start + i as real * spb;
      assert beats[i - 1] == start + (i - 1) as real * spb;
    }
  }

  /** Beats that continue a progression extend it. */
  lemma ProgressionAppend(a: seq<real>, b: seq<real>, start: real, spb: real)
    requires Progression(a, start, spb)
    requires Progression(b, start + |a| as real * spb, spb)
    ensures Progression(a + b, start, spb)
  {
    forall i | |a| <= i < |a| + |b| ensures (a + b)[i] == start + i as real * spb {
      var j := i - |a|;
      assert (a + b)[i] == b[j] == start + |a| as real * spb + j as real * spb;
      assert |a| as real * spb + j as real * spb == (|a| + j) as real * spb;
    }
  }

  /** Two consecutive ticks at the same tempo. While the audio clock has not
      overtaken the stored clock, the second tick carries on the first one's
      grid: together they emit one progression, and the second tick's first
      beat comes exactly one period after the first tick's last. (When it has
      overtaken it, `Tick` restarts the grid at the audio clock.) */
  method TickTwice(e: Engine, now1: real, now2: real) returns (mid: Engine, e': Engine, first: seq<real>, second: seq<real>)
    requires e.graph.Some? && e.tempo > 0.0
    ensures mid.tempo == e.tempo && e'.tempo == e.tempo
    ensures now2 <= mid.nextNoteTime ==> Progression(first + second, Start(e, now1), 60.0 / e.tempo)
    ensures now2 <= mid.nextNoteTime && |first| > 0 && |second| > 0 ==>
      second[0] - first[|first| - 1] == 60.0 / e.tempo
  {
    mid, first := Tick(e, now1);
    e', second := Tick(mid, now2);
    if now2 <= mid.nextNoteTime {
      var spb := 60.0 / e.tempo;
      assert Start(mid, now2) == Start(e, now1) + |first| as real * spb;
      ContinueGrid(first, second, Start(e, now1), spb);
    }
  }

  /** A tick that starts at the audio clock emits at least one beat. */
  lemma Restart(n: nat, now: real, spb: real, next: real)
    requires next == now + n as real * spb && next >= now + Lookahead
    ensures n > 0
  {
  }

  /** The second of two ticks starts where the first stopped: one progression,
      with one period across the seam. */
  lemma ContinueGrid(first: seq<real>, second: seq<real>, start: real, spb: real)
    requires Progression(first, start, spb)
    requires Progression(second, start + |first| as real * spb, spb)
    ensures Progression(first + second, start, spb)
    ensures |first| > 0 && |second| > 0 ==> second[0] - first[|first| - 1] == spb
  {
    ProgressionAppend(first, second, start, spb);
    if |first| > 0 && |second| > 0 {
      var k := |first| - 1;
      assert first[k] == start + k as real * spb;
      assert k as real * spb + spb == |first| as real * spb;
    }
  }

  /** Starting playback: initialize if needed, unlock, put the clock 0.1 s
      ahead of the audio clock and run the first tick, which therefore
      schedules nothing; the first beat falls exactly at `now + 0.1`. */
  method Play(e: Engine, now: real, startsSuspended: bool) returns (e': Engine, beats: seq<real>)
    requires e.tempo > 0.0
    ensures beats == []
    ensures e'.graph.Some? && !e'.graph.value.suspended && e'.ticking
    ensures e'.nextNoteTime == now + StartDelay
    ensures e'.tempo == e.tempo && e'.muted == e.muted
    ensures e.graph.Some? ==>
      e'.graph.value.master == e.graph.value.master && e'.graph.value.bass == e.graph.value.bass
  {
    var ready := Unlock(if e.graph.None? then Init(e, now, startsSuspended) else e);
    e', beats := Tick(ready.(nextNoteTime := now + StartDelay), now);
  }

  /** The ranges hold on mount and survive initialization. */
  lemma InitValid(muted: bool, e: Engine, now: real, startsSuspended: bool)
    ensures Valid(Mounted(muted))
    ensures Valid(e) ==> Valid(Init(e, now, startsSuspended))
  {
  }

  /** `initAudio` is idempotent: a second call, at any time and whatever the
      platform would decide, changes nothing; and starting playback twice
      leaves the same graph as starting it once. */
  lemma InitIdempotent(e: Engine, t1: real, t2: real, s1: bool, s2: bool)
    ensures Init(Init(e, t1, s1), t2, s2) == Init(e, t1, s1)
    ensures Unlock(Init(Unlock(Init(e, t1, s1)), t2, s2)) == Unlock(Init(e, t1, s1))
  {
  }

  /** A scroll at a non-negative position keeps the engine in range: the
      progress lies in [0, 1], so the tempo stays in [50, 150] BPM, the bass
      in [50, 90] Hz and the master gain target in [0, 0.55]. */
  lemma ScrollKeepsValid(e: Engine, scrollY: real, docHeight: real, now: real)
    requires Valid(e) && scrollY >= 0.0
    requires e.graph.Some? && scrollY <= docHeight - EndMargin ==> docHeight > 0.0
    ensures Valid(HandleScroll(e, scrollY, docHeight, now))
  {
  }

  /** With the lower bound on progress, every scroll position keeps the
      engine in range, so the scheduler's beat period stays positive. */
  lemma ClampedScrollKeepsValid(e: Engine, scrollY: real, docHeight: real, now: real)
    requires Valid(e)
    requires e.graph.Some? && scrollY <= docHeight - EndMargin ==> docHeight > 0.0
    ensures Valid(HandleScrollClamped(e, scrollY, docHeight, now))
    ensures HandleScrollClamped(e, scrollY, docHeight, now).tempo > 0.0
  {
  }

  /** The beat time `n` periods after `start`. */
  function BeatTime(start: real, spb: real, n: nat): real {
    start + n as real * spb
  }

  /** The handler as written lets an overscroll above the top of the page
      drive the progress negative: 60 px above the top of a page with 100 px
      to scroll gives a tempo of -10 BPM. The beat period is then -6 s, so
      from any tick whose clock is inside the lookahead window every further
      beat time, the `n`-th for every `n`, stays inside it and the scheduling
      loop never exits. */
  lemma OverscrollStallsScheduler(e: Engine, now: real, t: real, n: nat)
    requires e.graph.Some? && Valid(e)
    requires e.nextNoteTime < t + Lookahead
    ensures var e' := HandleScroll(e, -60.0, 100.0, now);
      && e'.tempo == -10.0
      && 60.0 / e'.tempo == -6.0
      && BeatTime(Start(e', t), 60.0 / e'.tempo, n) < t + Lookahead
  {
    assert Scroll.Progress(-60.0, 100.0) == -0.6;
    assert n as real * -6.0 <= 0.0;
  }

  /** Mute sync at a non-negative position keeps the engine in range. */
  lemma MuteKeepsValid(e: Engine, muted: bool, scrollY: real, docHeight: real, now: real)
    requires Valid(e) && scrollY >= 0.0
    requires e.graph.Some? && !muted ==> docHeight > 0.0
    ensures Valid(SyncMute(e, muted, scrollY, docHeight, now))
  {
  }

  /** Scrolling further down, short of the end zone, never slows the tempo
      or lowers the bass target, muted or not, and never lowers the volume
      target of an unmuted engine. */
  lemma ScrollMonotone(e: Engine, y1: real, y2: real, docHeight: real, now: real)
    requires e.graph.Some?
    requires y1 <= y2 <= docHeight - EndMargin && docHeight > 0.0
    ensures HandleScroll(e, y1, docHeight, now).tempo <= HandleScroll(e, y2, docHeight, now).tempo
    ensures HandleScroll(e, y1, docHeight, now).graph.value.bass.target
         <= HandleScroll(e, y2, docHeight, now).graph.value.bass.target
    ensures !e.muted ==>
      HandleScroll(e, y1, docHeight, now).graph.value.master.target
        <= HandleScroll(e, y2, docHeight, now).graph.value.master.target
  {
    Scroll.ProgressMonotone(y1, y2, docHeight);
  }

  /** Muting and unmuting touch only the master gain: the scheduler clock,
      the tempo and the bass are exactly as before, so beats resume in phase,
      and the master target is back at the scroll volume. */
  lemma MuteRoundTrip(e: Engine, scrollY: real, docHeight: real, t1: real, t2: real)
    requires e.graph.Some? && docHeight > 0.0
    ensures var e' := SyncMute(SyncMute(e, true, scrollY, docHeight, t1), false, scrollY, docHeight, t2);
      && e'.nextNoteTime == e.nextNoteTime && e'.tempo == e.tempo && e'.ticking == e.ticking
      && !e'.muted
      && e'.graph.value.bass == e.graph.value.bass
      && e'.graph.value.master == Level(Volume(Scroll.Progress(scrollY, docHeight)), t2, 0.1)
  {
  }

  /** Outside the end zone, unmuting sets the same master target that a scroll
      at the same position sets on an unmuted engine. */
  lemma UnmuteMatchesScroll(e: Engine, scrollY: real, docHeight: real, now: real)
    requires e.graph.Some? && scrollY <= docHeight - EndMargin && docHeight > 0.0
    ensures SyncMute(e, false, scrollY, docHeight, now).graph.value.master
         == HandleScroll(e.(muted := false), scrollY, docHeight, now).graph.value.master
  {
  }

  /** Inside the end zone the two disagree: a scroll fades the bed to 0, but
      unmuting there restores the scroll volume (0.55 at the very bottom) until
      the next scroll event. */
  lemma UnmuteIgnoresEndFade(e: Engine, scrollY: real, docHeight: real, now: real)
    requires e.graph.Some? && docHeight > 0.0 && scrollY > docHeight - EndMargin
    ensures HandleScroll(e.(muted := false), scrollY, docHeight, now).graph.value.master.target == 0.0
    ensures scrollY >= 0.0 ==> SyncMute(e, false, scrollY, docHeight, now).graph.value.master.target >= 0.15
    ensures scrollY >= docHeight ==> SyncMute(e, false, scrollY, docHeight, now).graph.value.master.target == 0.55
  {
  }
}

=== FILE: member_card.dfy ===
/**
 The flip card of one band member: a two-state toggle whose click handler
 fires the `onFlip` callback on the unflipped-to-flipped edge only.
 */
module MemberCard {
  /** The card's only state: which face is shown. */
  datatype Card = Card(flipped: bool)

  /** A card is mounted showing its front. */
  const Initial: Card := Card(false)

  /** `handleInteraction`: the new card, and whether `onFlip` was called. */
  function Interact(c: Card): (r: (Card, bool))
    ensures r.0.flipped != c.flipped
    ensures r.1 <==> r.0.flipped
  {
    if !c.flipped then (Card(true), true) else (Card(false), false)
  }

  /** The card after `n` clicks, and how many times `onFlip` was called. */
  function Run(c: Card, n: nat): (r: (Card, nat))
    ensures r.1 <= n
    decreases n
  {
    if n == 0 then (c, 0)
    else
      var (next, fired) := Interact(c);
      var (last, calls) := Run(next, n - 1);
      (last, calls + if fired then 1 else 0)
  }

  /** The cards shown over `n` clicks, the starting one included. */
  function Trace(c: Card, n: nat): (t: seq<Card>)
    ensures |t| == n + 1 && t[0] == c
    decreases n
  {
    if n == 0 then [c] else [c] + Trace(Interact(c).0, n - 1)
  }

  /** The number of unflipped-to-flipped steps along a trace. */
  function RisingEdges(t: seq<Card>): nat {
    if |t| < 2 then 0
    else RisingEdges(t[1..]) + if !t[0].flipped && t[1].flipped then 1 else 0
  }

  /** Two clicks give the card back, with `onFlip` called exactly once. */
  lemma TwiceRestores(c: Card)
    ensures Interact(Interact(c).0).0 == c
    ensures Interact(c).1 != Interact(Interact(c).0).1
  {
  }

  /** The face shown strictly alternates: after `n` clicks the card is flipped
      exactly when it started flipped and `n` is even, or started unflipped
      and `n` is odd. */
  lemma {:induction false} RunAlternates(c: Card, n: nat)
    ensures Run(c, n).0.flipped <==> (c.flipped <==> n % 2 == 0)
    ensures Run(c, n).0 == Trace(c, n)[n]
    decreases n
  {
    if n > 0 {
      RunAlternates(Interact(c).0, n - 1);
    }
  }

  /** Consecutive cards of a trace always differ. */
  lemma {:induction false} TraceAlternates(c: Card, n: nat, i: nat)
    requires i < n
    ensures Trace(c, n)[i + 1].flipped != Trace(c, n)[i].flipped
    decreases i
  {
    if i > 0 {
      TraceAlternates(Interact(c).0, n - 1, i - 1);
    }
  }

  /** Over any number of clicks, `onFlip` is called once per
      unflipped-to-flipped step, and at no other time. */
  lemma {:induction false} CallsAreRisingEdges(c: Card, n: nat)
    ensures Run(c, n).1 == RisingEdges(Trace(c, n))
    decreases n
  {
    if n > 0 {
      var next := Interact(c).0;
      CallsAreRisingEdges(next, n - 1);
      var t := Trace(c, n);
      assert t[1..] == Trace(next, n - 1);
    }
  }

  /** From a fresh card, `n` clicks call `onFlip` on every odd click: (n + 1) / 2
      times. From a flipped card, n / 2 times. */
  lemma {:induction false} CallCount(c: Card, n: nat)
    ensures Run(c, n).1 == if c.flipped then n / 2 else (n + 1) / 2
    decreases n
  {
    if n > 0 {
      CallCount(Interact(c).0, n - 1);
    }
  }
}

=== FILE: particle_canvas.dfy ===
/**
 The particle field: a fixed set of points created on resize and advanced
 once per animation frame under a speed taken from the shared settings (or
 from scroll progress), with toroidal wrap, transient pointer repulsion and a
 heartbeat vibration, then drawn as discs or, above a speed threshold, as
 streaks. `Math.sin`, `Math.cos`, `Math.sqrt` and `Math.random` are replaced
 by given values with their ranges; drawing calls become `Mark` values.
 */
module ParticleCanvas {
  import opened Wrappers
  import Scroll

  datatype ColorMode = Yellow | Blue | Pink | Multicolor | White | Default

  /** The shared control cell written by phase triggers and read every frame. */
  datatype ParticleSettings = ParticleSettings(speedMultiplier: real, colorMode: ColorMode, densityMultiplier: real)

  /** What a frame reads when the canvas was given no settings ref. */
  const Fallback: ParticleSettings := ParticleSettings(1.0, Default, 1.0)

  /** A particle: rendered position, size, velocity, opacity, and the base
      position that carries the kinematics. */
  datatype Particle = Particle(x: real, y: real, size: real, speedX: real, speedY: real,
                               opacity: real, baseX: real, baseY: real)

  const GoldHex: string := "#D4AF37"
  const PinkHex: string := "#E91E63"
  const BlueHex: string := "#00B4D8"
  const WhiteHex: string := "#FFFFFF"

  /** Viewports narrower than this get the small particle set. */
  const MobileWidth: real := 768.0
  const InteractionRadius: real := 250.0
  const MaxPush: real := 50.0
  /** Advance of the time accumulator per frame. */
  const TimeStep: real := 0.05

  // ---------------------------------------------------------------- creation

  /** The eight `Math.random()` draws one particle consumes, in call order. */
  datatype Draws = Draws(x: real, y: real, baseX: real, baseY: real,
                         size: real, speedX: real, speedY: real, opacity: real)

  predicate Unit(u: real) { 0.0 <= u < 1.0 }

  predicate UnitDraws(d: Draws) {
    Unit(d.x) && Unit(d.y) && Unit(d.baseX) && Unit(d.baseY)
    && Unit(d.size) && Unit(d.speedX) && Unit(d.speedY) && Unit(d.opacity)
  }

  /** `v` lies on the canvas axis [0, bound]; a uniform draw times the bound
      also stays below it whenever the bound is positive. */
  predicate OnAxis(v: real, bound: real) { 0.0 <= v <= bound }

  predicate Drawn(v: real, bound: real) { OnAxis(v, bound) && (bound > 0.0 ==> v < bound) }

  /** The attributes a particle keeps for its whole life. */
  predicate Attributes(p: Particle) {
    && 1.0 <= p.size < 3.0
    && 0.2 <= p.opacity < 0.7
    && -0.5 <= p.speedX < 0.5
    && -0.5 <= p.speedY < 0.5
  }

  /** A freshly created particle of a `w` by `h` canvas. */
  predicate Spawned(p: Particle, w: real, h: real) {
    && Attributes(p)
    && Drawn(p.x, w) && Drawn(p.y, h) && Drawn(p.baseX, w) && Drawn(p.baseY, h)
  }

  /** A uniform draw scaled to an axis lands on it, below its far end. */
  function Scale(u: real, bound: real): (v: real)
    requires Unit(u) && bound >= 0.0
    ensures Drawn(v, bound)
  {
    assert bound - u * bound == (1.0 - u) * bound;
    assert bound > 0.0 ==> (1.0 - u) * bound > 0.0;
    u * bound
  }

  /** One particle of `initParticles`. */
  function Spawn(d: Draws, w: real, h: real): (p: Particle)
    requires UnitDraws(d) && w >= 0.0 && h >= 0.0
    ensures Spawned(p, w, h)
  {
    Particle(Scale(d.x, w), Scale(d.y, h), d.size * 2.0 + 1.0,
             (d.speedX - 0.5) * 1.0, (d.speedY - 0.5) * 1.0,
             d.opacity * 0.5 + 0.2, Scale(d.baseX, w), Scale(d.baseY, h))
  }

  function ParticleCount(innerWidth: real): (n: nat)
    ensures n == 80 || n == 180
    ensures n == 80 <==> innerWidth < MobileWidth
  {
    if innerWidth < MobileWidth then 80 else 180
  }

  datatype Canvas = Canvas(width: real, height: real, particles: seq<Particle>)

  /** `resize`: the canvas takes the viewport's size and the whole particle
      set is recreated, 80 particles below 768 px of width and 180 otherwise,
      from the given random draws. */
  function Resize(innerWidth: real, innerHeight: real, draws: seq<Draws>): (c: Canvas)
    requires innerWidth >= 0.0 && innerHeight >= 0.0
    requires |draws| >= ParticleCount(innerWidth)
    requires forall i | 0 <= i < |draws| :: UnitDraws(draws[i])
    ensures c.width == innerWidth && c.height == innerHeight
    ensures |c.particles| == (if innerWidth < 768.0 then 80 else 180)
    ensures forall i | 0 <= i < |c.particles| :: Spawned(c.particles[i], innerWidth, innerHeight)
  {
    var n := ParticleCount(innerWidth);
    Canvas(innerWidth, innerHeight,
           seq(n, i requires 0 <= i < n => Spawn(draws[i], innerWidth, innerHeight)))
  }

  // ---------------------------------------------------------------- one frame

  /** The speed a frame moves particles at. With a settings ref the shared
      speed plus a fifth of the heartbeat; without one (the fallback speed is
      1) a scroll-driven speed plus half the heartbeat. */
  function EffectiveSpeed(settingsRef: Option<ParticleSettings>, progress: real, heartbeat: real): real {
    var settings := settingsRef.GetOr(Fallback);
    if settingsRef.None? && settings.speedMultiplier == 1.0 then 1.0 + progress * 10.0 + heartbeat * 0.5
    else settings.speedMultiplier + heartbeat * 0.2
  }

  /** The presence of a settings ref decides the rule, not the value 1: a
      shared speed of exactly 1 is still an override. Heartbeat in [0.5, 1.5]
      and progress in [0, 1] bound the speed. */
  lemma SpeedRule(settingsRef: Option<ParticleSettings>, progress: real, heartbeat: real)
    requires 0.5 <= heartbeat <= 1.5
    ensures settingsRef.Some? ==>
      EffectiveSpeed(settingsRef, progress, heartbeat) == settingsRef.value.speedMultiplier + 0.2 * heartbeat
    ensures settingsRef.Some? ==>
      settingsRef.value.speedMultiplier + 0.1 <= EffectiveSpeed(settingsRef, progress, heartbeat)
                                             <= settingsRef.value.speedMultiplier + 0.3
    ensures settingsRef.None? ==>
      EffectiveSpeed(settingsRef, progress, heartbeat) == 1.0 + 10.0 * progress + 0.5 * heartbeat
    ensures settingsRef.None? && 0.0 <= progress <= 1.0 ==>
      1.25 <= EffectiveSpeed(settingsRef, progress, heartbeat) <= 11.75
  {
  }

  /** The fill chosen once per frame: a fixed colour, or a per-particle
      random choice. */
  datatype Fill = Solid(colour: string) | Multi

  function FillFor(mode: ColorMode, progress: real): Fill {
    match mode
    case Blue => Solid(BlueHex)
    case Pink => Solid(PinkHex)
    case White => Solid(WhiteHex)
    case Multicolor => Multi
    case _ => if progress > 0.4 then Solid(PinkHex) else Solid(GoldHex)
  }

  /** The per-particle colour in multicolor mode, from one uniform draw. */
  function MultiColour(hue: real): (c: string)
    ensures c == GoldHex || c == PinkHex || c == BlueHex
    ensures c == GoldHex <==> hue > 0.66
    ensures c == BlueHex <==> hue <= 0.33
  {
    if hue > 0.66 then GoldHex else if hue > 0.33 then PinkHex else BlueHex
  }

  /** Colour selection: blue, pink and white are fixed; yellow is not given a
      colour of its own and behaves like the default mode, gold up to 40 %
      progress and pink past it; multicolor draws one of three colours per
      particle, each over its own third of the unit interval. */
  lemma ColourRule(mode: ColorMode, progress: real, hue: real)
    ensures mode == Blue ==> FillFor(mode, progress) == Solid("#00B4D8")
    ensures mode == Pink ==> FillFor(mode, progress) == Solid("#E91E63")
    ensures mode == White ==> FillFor(mode, progress) == Solid("#FFFFFF")
    ensures mode == Multicolor <==> FillFor(mode, progress).Multi?
    ensures mode == Yellow || mode == Default ==>
      FillFor(mode, progress) == (if progress > 0.4 then Solid("#E91E63") else Solid("#D4AF37"))
    ensures FillFor(Yellow, progress) == FillFor(Default, progress)
    ensures MultiColour(hue) in {"#D4AF37", "#E91E63", "#00B4D8"}
    ensures MultiColour(hue) == "#D4AF37" <==> hue > 0.66
    ensures MultiColour(hue) == "#00B4D8" <==> hue <= 0.33
  {
  }

  /** Toroidal wrap of one coordinate, as two sequential tests: past the far
      edge goes to 0, below 0 goes to the far edge. */
  function Wrap(v: real, bound: real): (r: real)
    requires bound >= 0.0
    ensures OnAxis(r, bound)
    ensures OnAxis(v, bound) ==> r == v
    ensures v > bound ==> r == 0.0
    ensures v < 0.0 ==> r == bound
  {
    var a := if v > bound then 0.0 else v;
    if a < 0.0 then bound else a
  }

  /** The extra upward drift of warp speed: none up to speed 3, 0.8 of the
      speed (so more than 2.4) above it. */
  function Drift(speed: real): (r: real)
    ensures r > 0.0 <==> speed > 3.0
    ensures r == 0.0 <==> speed <= 3.0
    ensures speed > 3.0 ==> r > 2.4
  {
    if speed > 3.0 then speed * 0.8 else 0.0
  }

  /** Kinematic advance, warp drift and wrap of the base position: the base
      moves by its velocity times the speed, and above speed 3 it also rises
      by 0.8 of the speed; a coordinate that leaves the canvas past its far
      edge restarts at 0, one below 0 restarts at the far edge. */
  function Advance(p: Particle, speed: real, w: real, h: real): (q: Particle)
    requires w >= 0.0 && h >= 0.0
    ensures q == p.(baseX := q.baseX, baseY := q.baseY)
    ensures OnAxis(q.baseX, w) && OnAxis(q.baseY, h)
    ensures var x := p.baseX + p.speedX * speed;
      && (OnAxis(x, w) ==> q.baseX == x)
      && (x > w ==> q.baseX == 0.0)
      && (x < 0.0 ==> q.baseX == w)
    ensures var y := p.baseY + p.speedY * speed - (if speed > 3.0 then speed * 0.8 else 0.0);
      && (OnAxis(y, h) ==> q.baseY == y)
      && (y > h ==> q.baseY == 0.0)
      && (y < 0.0 ==> q.baseY == h)
  {
    p.(baseX := Wrap(p.baseX + p.speedX * speed, w),
       baseY := Wrap(p.baseY + p.speedY * speed - Drift(speed), h))
  }

  datatype Pointer = Pointer(x: real, y: real)

  /** The pointer's push on a particle whose base is at (baseX, baseY), given the
      distance between them: nothing without a pointer or outside the
      250-unit radius; otherwise a push of at most 50, falling off linearly
      with distance, along the direction from the pointer to the particle.
      The source divides by the distance unguarded, so a pointer exactly on a
      base position inside the radius is excluded. */
  function Repulsion(pointer: Option<Pointer>, baseX: real, baseY: real, distance: real): (r: (real, real))
    requires pointer.Some? && distance < InteractionRadius ==> distance != 0.0
    ensures pointer.None? || distance >= InteractionRadius ==> r == (0.0, 0.0)
  {
    match pointer
    case None => (0.0, 0.0)
    case Some(m) =>
      var distDx := m.x - baseX;
      var distDy := m.y - baseY;
      if distance < InteractionRadius then
        var push := (InteractionRadius - distance) / InteractionRadius * MaxPush;
        (-(distDx / distance) * push, -(distDy / distance) * push)
      else (0.0, 0.0)
  }

  /** With `distance` the Euclidean distance from the pointer to the base,
      a particle within the radius is pushed by `push` in (0, 50], straight
      away from the pointer, and the offset has length exactly `push`. */
  lemma RepulsionLaw(m: Pointer, baseX: real, baseY: real, distance: real)
    requires distance > 0.0
    requires distance * distance == (m.x - baseX) * (m.x - baseX) + (m.y - baseY) * (m.y - baseY)
    requires distance < InteractionRadius
    ensures var push := (InteractionRadius - distance) / InteractionRadius * MaxPush;
      var r := Repulsion(Some(m), baseX, baseY, distance);
      && 0.0 < push <= MaxPush
      && r.0 == -(push / distance) * (m.x - baseX)
      && r.1 == -(push / distance) * (m.y - baseY)
      && r.0 * r.0 + r.1 * r.1 == push * push
  {
  }

  /** A drawn particle: its colour, alpha and shape. */
  datatype Shape = Disc(cx: real, cy: real, radius: real) | Streak(x: real, y: real, length: real, lineWidth: real)
  datatype Mark = Mark(colour: string, alpha: real, shape: Shape)

  /** The values a frame takes as given for one particle: `wave` stands for
      `cos(time * 2 + x)` with `x` its last rendered abscissa, `distance` for
      the distance from the pointer to its advanced base, `hue` for the
      colour draw of multicolor mode. */
  datatype Given = Given(wave: real, distance: real, hue: real)

  /** The frame-wide values: the effective speed, the heartbeat
      `sin(time) * 0.5 + 1`, the fill, the canvas size and the pointer. */
  datatype Frame = Frame(speed: real, heartbeat: real, fill: Fill, width: real, height: real, pointer: Option<Pointer>)

  predicate Defined(f: Frame, g: Given) {
    f.width >= 0.0 && f.height >= 0.0 && g.distance >= 0.0 && (f.pointer.Some? ==> g.distance != 0.0)
  }

  /** One particle for one frame: advance its base, then render it at base +
      repulsion + a vibration offset shared by both axes, and draw it as a
      streak above speed 4 and as a heartbeat-pulsed disc otherwise. */
  function StepParticle(p: Particle, f: Frame, g: Given): (r: (Particle, Mark))
    requires Defined(f, g)
    ensures r.0 == Advance(p, f.speed, f.width, f.height).(x := r.0.x, y := r.0.y)
    ensures var push := Repulsion(f.pointer, r.0.baseX, r.0.baseY, g.distance);
      r.0.x - r.0.baseX - push.0 == r.0.y - r.0.baseY - push.1 == g.wave * (f.speed * 0.5)
    ensures r.1.alpha == p.opacity
    ensures r.1.shape.Streak? <==> f.speed > 4.0
    ensures r.1.shape.Streak? ==> r.1.shape == Streak(r.0.x, r.0.y, p.size * f.speed, p.size)
    ensures r.1.shape.Disc? ==> r.1.shape == Disc(r.0.x, r.0.y, p.size * (1.0 + f.heartbeat * 0.2))
    ensures f.fill.Solid? ==> r.1.colour == f.fill.colour
    ensures f.fill.Multi? ==> r.1.colour == MultiColour(g.hue)
  {
    var a := Advance(p, f.speed, f.width, f.height);
    var (dx, dy) := Repulsion(f.pointer, a.baseX, a.baseY, g.distance);
    var beatOffset := g.wave * (f.speed * 0.5);
    var q := a.(x := a.baseX + dx + beatOffset, y := a.baseY + dy + beatOffset);
    var colour := match f.fill case Solid(c) => c case Multi => MultiColour(g.hue);
    var shape := if f.speed > 4.0 then Streak(q.x, q.y, q.size * f.speed, q.size)
                 else Disc(q.x, q.y, q.size * (1.0 + f.heartbeat * 0.2));
    (q, Mark(colour, q.opacity, shape))
  }

  /** Warp drift applies exactly above speed 3, streaks exactly above 4; a
      disc's radius pulses between 1.1 and 1.3 times the particle size. */
  lemma WarpAndStreak(p: Particle, f: Frame, g: Given)
    requires Defined(f, g) && 0.5 <= f.heartbeat <= 1.5 && p.size > 0.0
    ensures Drift(f.speed) > 0.0 <==> f.speed > 3.0
    ensures Drift(f.speed) == 0.0 <==> f.speed <= 3.0
    ensures StepParticle(p, f, g).1.shape.Streak? <==> f.speed > 4.0
    ensures StepParticle(p, f, g).1.shape.Disc? ==>
      1.1 * p.size <= StepParticle(p, f, g).1.shape.radius <= 1.3 * p.size
  {
  }

  /** The animated swarm: the time accumulator and the particles, which
      `Resize` creates. */
  datatype Swarm = Swarm(time: real, particles: seq<Particle>)

  /** Everything a frame reads from outside: the settings ref, the scroll
      position and page height, the canvas size, the pointer and the
      heartbeat (a sine of the advanced time, so in [0.5, 1.5]). */
  datatype Inputs = Inputs(settingsRef: Option<ParticleSettings>, scrollY: real, docHeight: real,
                           width: real, height: real, pointer: Option<Pointer>, heartbeat: real)

  /** The frame-wide values of `animate`. The page height must be positive:
      the source divides by it every frame. */
  function FrameOf(inp: Inputs): (f: Frame)
    requires inp.docHeight > 0.0
    ensures f.width == inp.width && f.height == inp.height && f.pointer == inp.pointer
    ensures f.heartbeat == inp.heartbeat
    ensures var p := Scroll.Progress(inp.scrollY, inp.docHeight);
      f.speed == if inp.settingsRef.Some? then inp.settingsRef.value.speedMultiplier + 0.2 * inp.heartbeat
                 else 1.0 + 10.0 * p + 0.5 * inp.heartbeat
    ensures var mode := if inp.settingsRef.Some? then inp.settingsRef.value.colorMode else Default;
      && (mode == Multicolor <==> f.fill.Multi?)
      && (mode == Blue ==> f.fill == Solid(BlueHex))
      && (mode == Pink ==> f.fill == Solid(PinkHex))
      && (mode == White ==> f.fill == Solid(WhiteHex))
      && (mode == Yellow || mode == Default ==>
            f.fill == if inp.scrollY > 0.4 * inp.docHeight then Solid(PinkHex) else Solid(GoldHex))
  {
    var progress := Scroll.Progress(inp.scrollY, inp.docHeight);
    var settings := inp.settingsRef.GetOr(Fallback);
    Scroll.ProgressExceeds(inp.scrollY, inp.docHeight, 0.4);
    Frame(EffectiveSpeed(inp.settingsRef, progress, inp.heartbeat), inp.heartbeat,
          FillFor(settings.colorMode, progress), inp.width, inp.height, inp.pointer)
  }

  /** Without a settings ref the scroll alone sets the mode, whatever the
      heartbeat: past 35 % of the page the particles streak, in the top 5 %
      they neither drift nor streak, and they are never multicoloured; with a
      ref the speed stays within 0.1 of the shared speed plus 0.2. */
  lemma FrameSpeeds(inp: Inputs)
    requires inp.docHeight > 0.0 && 0.5 <= inp.heartbeat <= 1.5
    ensures inp.settingsRef.None? && inp.scrollY > 0.35 * inp.docHeight ==> FrameOf(inp).speed > 4.0
    ensures inp.settingsRef.None? && 0.0 <= inp.scrollY <= 0.05 * inp.docHeight ==>
      FrameOf(inp).speed <= 3.0 && Drift(FrameOf(inp).speed) == 0.0
    ensures inp.settingsRef.None? ==> FrameOf(inp).fill.Solid?
    ensures inp.settingsRef.Some? ==>
      inp.settingsRef.value.speedMultiplier + 0.1 <= FrameOf(inp).speed <= inp.settingsRef.value.speedMultiplier + 0.3
  {
    Scroll.ProgressExceeds(inp.scrollY, inp.docHeight, 0.35);
    Scroll.ProgressExceeds(inp.scrollY, inp.docHeight, 0.05);
  }

  /** `animate`: advance the time accumulator by 0.05, then step every
      particle with the same frame-wide values and draw it. */
  function Animate(fd: Swarm, inp: Inputs, given: seq<Given>): (r: (Swarm, seq<Mark>))
    requires inp.docHeight > 0.0 && inp.width >= 0.0 && inp.height >= 0.0
    requires |given| == |fd.particles|
    requires forall i | 0 <= i < |given| :: given[i].distance >= 0.0 && (inp.pointer.Some? ==> given[i].distance != 0.0)
    ensures r.0.time == fd.time + TimeStep
    ensures |r.0.particles| == |fd.particles| && |r.1| == |fd.particles|
    ensures forall i | 0 <= i < |fd.particles| ::
      && r.0.particles[i] == Advance(fd.particles[i], FrameOf(inp).speed, inp.width, inp.height).(x := r.0.particles[i].x, y := r.0.particles[i].y)
      && OnAxis(r.0.particles[i].baseX, inp.width)
      && OnAxis(r.0.particles[i].baseY, inp.height)
      && r.1[i].alpha == fd.particles[i].opacity
    ensures forall i | 0 <= i < |fd.particles| ::
      (r.0.particles[i], r.1[i]) == StepParticle(fd.particles[i], FrameOf(inp), given[i])
  {
    var f := FrameOf(inp);
    var n := |fd.particles|;
    var steps := seq(n, i requires 0 <= i < n => StepParticle(fd.particles[i], f, given[i]));
    (Swarm(fd.time + TimeStep, seq(n, i requires 0 <= i < n => steps[i].0)),
     seq(n, i requires 0 <= i < n => steps[i].1))
  }

  /** A frame keeps every particle's lifelong attributes and keeps its base
      on the canvas: created particles stay well placed forever. */
  lemma AnimateKeepsSpawnRanges(fd: Swarm, inp: Inputs, given: seq<Given>)
    requires inp.docHeight > 0.0 && inp.width >= 0.0 && inp.height >= 0.0
    requires |given| == |fd.particles|
    requires forall i | 0 <= i < |given| :: given[i].distance >= 0.0 && (inp.pointer.Some? ==> given[i].distance != 0.0)
    requires forall i | 0 <= i < |fd.particles| :: Attributes(fd.particles[i])
    ensures forall i | 0 <= i < |fd.particles| ::
      && Attributes(Animate(fd, inp, given).0.particles[i])
      && OnAxis(Animate(fd, inp, given).0.particles[i].baseX, inp.width)
      && OnAxis(Animate(fd, inp, given).0.particles[i].baseY, inp.height)
  {
  }

  /** Repulsion is never accumulated: the base positions after a frame are
      the same whether or not a pointer is known; the pointer moves only the
      rendered position. */
  lemma RepulsionNotAccumulated(fd: Swarm, inp: Inputs, given: seq<Given>)
    requires inp.docHeight > 0.0 && inp.width >= 0.0 && inp.height >= 0.0
    requires |given| == |fd.particles|
    requires forall i | 0 <= i < |given| :: given[i].distance >= 0.0 && (inp.pointer.Some? ==> given[i].distance != 0.0)
    ensures var withPointer := Animate(fd, inp, given).0.particles;
      var without := Animate(fd, inp.(pointer := None), given).0.particles;
      forall i | 0 <= i < |fd.particles| ::
        withPointer[i].baseX == without[i].baseX && withPointer[i].baseY == without[i].baseY
  {
  }
}

=== FILE: scroll.dfy ===
/**
 Scroll progress, the scalar that drives both the rhythm bed and the
 particle field: how far the page has been scrolled, capped at 1.
 */
module Scroll {

  /** `min(scrollY / docHeight, 1)`. The source divides without a guard, so a
      zero or negative scrollable height (single-screen content) is excluded
      here rather than modelled as IEEE NaN or Infinity. */
  function Progress(scrollY: real, docHeight: real): (p: real)
    requires docHeight > 0.0
    ensures p <= 1.0
    ensures p == 1.0 <==> scrollY >= docHeight
    ensures p < 1.0 ==> p * docHeight == scrollY
    ensures scrollY >= 0.0 ==> 0.0 <= p
  {
    var q := scrollY / docHeight;
    if q < 1.0 then q else 1.0
  }

  /** Progress with the missing lower bound added: a position above the top
      of the page (an elastic overscroll) counts as 0. */
  function ClampedProgress(scrollY: real, docHeight: real): (p: real)
    requires docHeight > 0.0
    ensures 0.0 <= p <= 1.0
    ensures scrollY >= 0.0 ==> p == Progress(scrollY, docHeight)
    ensures scrollY < 0.0 ==> p == 0.0
  {
    var q := Progress(scrollY, docHeight);
    if q < 0.0 then 0.0 else q
  }

  /** Scrolling further down never lowers the progress. */
  lemma ProgressMonotone(y1: real, y2: real, docHeight: real)
    requires docHeight > 0.0
    requires y1 <= y2
    ensures Progress(y1, docHeight) <= Progress(y2, docHeight)
  {
    var q1 := y1 / docHeight;
    var q2 := y2 / docHeight;
    assert q1 * docHeight == y1;
    assert q2 * docHeight == y2;
    assert q1 <= q2;
  }

  /** Progress passes a threshold below 1 exactly when the position passes
      that fraction of the scrollable height. */
  lemma ProgressExceeds(scrollY: real, docHeight: real, c: real)
    requires docHeight > 0.0 && c < 1.0
    ensures Progress(scrollY, docHeight) > c <==> scrollY > c * docHeight
  {
    var q := scrollY / docHeight;
    assert q * docHeight == scrollY;
    if q > c {
      assert q * docHeight > c * docHeight;
    } else {
      assert q * docHeight <= c * docHeight;
    }
  }
}

=== FILE: sounds.dfy ===
/**
 The page shell's one-shot sound effects, each written as the automation
 calls and source start/stop times it schedules from its start time `t`.
 The noise buffers' random samples and the node wiring are not modelled.
 */
module Sounds {
  import opened Wrappers
  import opened WebAudio

  datatype SoundKind =
    | ReverseImpact   // "power down", played on mute
    | ForwardImpact   // "power up", played on unmute
    | DeepSwoosh      // final call-to-action reveal
    | EtherealSwoosh  // intro and ambient transitions
    | FlipClick       // member card flip
    | JazzChord       // entering the yellow phase
    | PartyKick       // entering the pink phase
    | ImpactBoom      // the footer's background title

  function Freq(node: string): Param { Param(node, Frequency) }
  function Amp(node: string): Param { Param(node, Gain) }

  /** How long after its start each sound has finished: its last scheduled
      event, stop, or the end of its noise buffer. */
  function Span(k: SoundKind): (d: real)
    ensures 0.0 < d <= 4.0
  {
    match k
    case ReverseImpact => 0.6
    case ForwardImpact => 0.5
    case DeepSwoosh => 4.0
    case EtherealSwoosh => 2.0
    case FlipClick => 0.1
    case JazzChord => 3.0
    case PartyKick => 0.3
    case ImpactBoom => 2.5
  }

  /** The frequencies of the chord pad, in Hz. */
  const ChordFrequencies: seq<real> := [174.61, 220.00, 261.63, 329.63, 392.00]

  /** Each effect as the source schedules it from a start time of 0: every
      time below is the offset after the start `t` that the source adds. */
  function Score(k: SoundKind): Sound {
    match k
    case ReverseImpact =>
      Sound([Track(Freq("osc"), [SetValue(150.0, 0.0), ExponentialRamp(10.0, 0.6)]),
             Track(Amp("gain"), [SetValue(0.5, 0.0), LinearRamp(0.0, 0.6)]),
             Track(Freq("filter"), [SetValue(1000.0, 0.0), ExponentialRamp(10.0, 0.5)]),
             Track(Amp("noiseGain"), [SetValue(0.3, 0.0), LinearRamp(0.0, 0.5)])],
            [Source("osc", Oscillator(Sine, DefaultFrequency), 0.0, Some(0.6)),
             Source("noise", Noise(0.6), 0.0, None)])
    case ForwardImpact =>
      Sound([Track(Freq("osc"), [SetValue(80.0, 0.0), ExponentialRamp(1.0, 0.5)]),
             Track(Amp("gain"), [SetValue(0.8, 0.0), ExponentialRamp(0.001, 0.5)])],
            [Source("osc", Oscillator(Sine, DefaultFrequency), 0.0, Some(0.5))])
    case DeepSwoosh =>
      Sound([Track(Freq("filter"), [SetValue(800.0, 0.0), ExponentialRamp(40.0, 2.0)]),
             Track(Amp("gain"), [SetValue(1.0, 0.0), ExponentialRamp(0.001, 3.0)]),
             Track(Freq("osc"), [SetValue(50.0, 0.0), ExponentialRamp(10.0, 2.0)]),
             Track(Amp("oscGain"), [SetValue(0.6, 0.0), ExponentialRamp(0.001, 2.0)])],
            [Source("noise", Noise(4.0), 0.0, None),
             Source("osc", Oscillator(Sine, DefaultFrequency), 0.0, Some(2.0))])
    case EtherealSwoosh =>
      Sound([Track(Freq("filter"), [SetValue(400.0, 0.0), ExponentialRamp(1200.0, 1.5)]),
             Track(Amp("gain"), [SetValue(0.0, 0.0), LinearRamp(0.3, 0.5), ExponentialRamp(0.001, 2.0)])],
            [Source("noise", Noise(2.0), 0.0, None)])
    case FlipClick =>
      Sound([Track(Freq("osc"), [SetValue(2000.0, 0.0), ExponentialRamp(500.0, 0.05)]),
             Track(Amp("gain"), [SetValue(0.05, 0.0), ExponentialRamp(0.001, 0.05)])],
            [Source("osc", Oscillator(Sine, DefaultFrequency), 0.0, Some(0.1))])
    case JazzChord =>
      Sound([Track(Amp("gain"), [SetValue(0.0, 0.0), LinearRamp(0.1, 0.1), ExponentialRamp(0.001, 3.0)])],
            seq(5, i requires 0 <= i < 5 =>
              Source("osc" + [(48 + i) as char], Oscillator(Sine, ChordFrequencies[i]), 0.0, Some(3.0))))
    case PartyKick =>
      Sound([Track(Freq("osc"), [SetValue(150.0, 0.0), ExponentialRamp(40.0, 0.1)]),
             Track(Amp("gain"), [SetValue(0.8, 0.0), ExponentialRamp(0.001, 0.3)])],
            [Source("osc", Oscillator(Sine, DefaultFrequency), 0.0, Some(0.3))])
    case ImpactBoom =>
      Sound([Track(Freq("osc"), [SetValue(120.0, 0.0), ExponentialRamp(30.0, 0.8)]),
             Track(Amp("oscGain"), [SetValue(1.0, 0.0), ExponentialRamp(0.001, 2.5)]),
             Track(Freq("noiseFilter"), [SetValue(800.0, 0.0), ExponentialRamp(100.0, 1.0)]),
             Track(Amp("noiseGain"), [SetValue(0.8, 0.0), ExponentialRamp(0.001, 1.5)])],
            [Source("osc", Oscillator(Sine, DefaultFrequency), 0.0, Some(2.5)),
             Source("noise", Noise(2.0), 0.0, None)])
  }


  /** The effect as `playSound` schedules it from the context's clock `t`. */
  function Render(k: SoundKind, t: real): Sound {
    Shift(Score(k), t)
  }

  /** Every sound effect, whenever it starts, schedules nothing before its
      start or after its span, uses only strictly positive exponential-ramp
      targets, and starts each such ramp from a positive value. */
  lemma RenderWellFormed(k: SoundKind, t: real)
    ensures WellFormed(Render(k, t), t, Span(k))
  {
    ScoreWellFormed(k);
    ShiftWellFormed(Score(k), 0.0, Span(k), t);
  }

  /** Every effect's score is well formed from 0 to its span. */
  lemma ScoreWellFormed(k: SoundKind)
    ensures WellFormed(Score(k), 0.0, Span(k))
  {
    match k {
      case ReverseImpact => ReverseImpactChecks();
      case ForwardImpact => ForwardImpactChecks();
      case DeepSwoosh => DeepSwooshChecks();
      case EtherealSwoosh => EtherealSwooshChecks();
      case FlipClick => FlipClickChecks();
      case JazzChord => JazzChordChecks();
      case PartyKick => PartyKickChecks();
      case ImpactBoom => ImpactBoomChecks();
    }
    CheckIsWellFormed(Score(k), 0.0, Span(k));
  }

  // Each score passes the executable check of `WebAudio`.

  lemma ReverseImpactChecks()
    ensures Check(Score(ReverseImpact), 0.0, Span(ReverseImpact))
  {
  }

  lemma ForwardImpactChecks()
    ensures Check(Score(ForwardImpact), 0.0, Span(ForwardImpact))
  {
  }

  lemma DeepSwooshChecks()
    ensures Check(Score(DeepSwoosh), 0.0, Span(DeepSwoosh))
  {
  }

  lemma EtherealSwooshChecks()
    ensures Check(Score(EtherealSwoosh), 0.0, Span(EtherealSwoosh))
  {
  }

  lemma FlipClickChecks()
    ensures Check(Score(FlipClick), 0.0, Span(FlipClick))
  {
  }

  lemma JazzChordChecks()
    ensures Check(Score(JazzChord), 0.0, Span(JazzChord))
  {
  }

  lemma PartyKickChecks()
    ensures Check(Score(PartyKick), 0.0, Span(PartyKick))
  {
  }

  lemma ImpactBoomChecks()
    ensures Check(Score(ImpactBoom), 0.0, Span(ImpactBoom))
  {
  }

  /** A sound's schedule depends on its start time only by translation: the
      effects carry no state from one call to the next. */
  lemma RenderShift(k: SoundKind, t: real, d: real)
    ensures Render(k, t + d) == Shift(Render(k, t), d)
  {
    ShiftShift(Score(k), t, d);
  }
}

=== FILE: web_audio.dfy ===
/**
 Sound events as data: each synthesized sound is described by the parameter
 automation calls it makes on its own nodes and by the start/stop times of its
 sources. Building and connecting the audio graph is not modelled; only the
 scheduled values are.
 */
module WebAudio {
  import opened Wrappers

  /** Which automatable parameter of which node of one sound. */
  datatype Field = Frequency | Gain
  datatype Param = Param(node: string, field: Field)

  /** One AudioParam call of the source; its target value and its time. */
  datatype Event =
    | SetValue(value: real, time: real)          // setValueAtTime
    | LinearRamp(value: real, time: real)        // linearRampToValueAtTime
    | ExponentialRamp(value: real, time: real)   // exponentialRampToValueAtTime
    | Cancel(time: real)                         // cancelScheduledValues

  /** The calls made on one parameter, in call order. The source makes all
      calls on one parameter together, so a sound is a list of tracks. */
  datatype Track = Track(param: Param, events: seq<Event>)

  datatype Wave = Sine | Triangle

  /** An oscillator with its starting frequency, or a buffer of white noise of
      the given length in seconds (the samples themselves are random and are
      not modelled). */
  datatype SourceKind = Oscillator(wave: Wave, frequency: real) | Noise(seconds: real)

  /** `start(at)` and, when the source calls it, `stop(at)`. */
  datatype Source = Source(node: string, kind: SourceKind, start: real, stop: Option<real>)

  datatype Sound = Sound(tracks: seq<Track>, sources: seq<Source>)

  /** The default oscillator frequency of the Web Audio API, in Hz. */
  const DefaultFrequency: real := 440.0

  /** The W3C Web Audio API (AudioParam, exponentialRampToValueAtTime) throws
      a RangeError for a target of 0, and holds the old value when a ramp
      starts from 0 or crosses sign. So an exponential ramp is well defined
      when its target is strictly positive and it directly follows a value
      event, no later than itself, that holds a strictly positive value. */
  predicate RampWellDefined(e: seq<Event>, i: int)
    requires 0 <= i < |e|
  {
    e[i].ExponentialRamp? ==>
      && e[i].value > 0.0
      && 0 < i
      && !e[i - 1].Cancel?
      && e[i - 1].value > 0.0
      && e[i - 1].time <= e[i].time
  }

  /** A track whose events are in time order, fall in [t, t + d], and whose
      exponential ramps are all well defined. */
  ghost predicate TrackWellFormed(tr: Track, t: real, d: real) {
    && (forall i, j | 0 <= i < j < |tr.events| :: tr.events[i].time <= tr.events[j].time)
    && (forall i | 0 <= i < |tr.events| :: t <= tr.events[i].time <= t + d)
    && (forall i | 0 <= i < |tr.events| :: RampWellDefined(tr.events, i))
  }

  /** A source starts no earlier than t and ends no later than t + d: either it
      is stopped after its start, or it is a noise buffer that runs out. */
  predicate SourceWithin(s: Source, t: real, d: real) {
    && t <= s.start
    && match s.stop
       case Some(stop) => s.start < stop <= t + d
       case None => s.kind.Noise? && s.start + s.kind.seconds <= t + d
  }

  /** A sound started at `t` that schedules nothing in the past and nothing
      after `t + d`, automates each parameter from one track only, and uses
      only well-defined exponential ramps. */
  ghost predicate WellFormed(s: Sound, t: real, d: real) {
    && (forall k, l | 0 <= k < l < |s.tracks| :: s.tracks[k].param != s.tracks[l].param)
    && (forall k | 0 <= k < |s.tracks| :: TrackWellFormed(s.tracks[k], t, d))
    && (forall k | 0 <= k < |s.sources| :: SourceWithin(s.sources[k], t, d))
  }

  // A well-formedness check that walks a sound index by index, without
  // quantifiers, so that it can be evaluated on a concrete sound.

  /** Event `i` lies in [t, t + d], is no earlier than its predecessor, and is
      a well-defined ramp if it is a ramp. */
  predicate StepOk(e: seq<Event>, i: int, t: real, d: real)
    requires 0 <= i < |e|
  {
    && t <= e[i].time <= t + d
    && (i > 0 ==> e[i - 1].time <= e[i].time)
    && RampWellDefined(e, i)
  }

  function EventsOkFrom(e: seq<Event>, i: nat, t: real, d: real): bool
    decreases |e| - i
  {
    i >= |e| || (StepOk(e, i, t, d) && EventsOkFrom(e, i + 1, t, d))
  }

  function ParamFreeFrom(p: Param, ts: seq<Track>, j: nat): bool
    decreases |ts| - j
  {
    j >= |ts| || (ts[j].param != p && ParamFreeFrom(p, ts, j + 1))
  }

  function DistinctFrom(ts: seq<Track>, k: nat): bool
    decreases |ts| - k
  {
    k >= |ts| || (ParamFreeFrom(ts[k].param, ts, k + 1) && DistinctFrom(ts, k + 1))
  }

  function TracksOkFrom(ts: seq<Track>, k: nat, t: real, d: real): bool
    decreases |ts| - k
  {
    k >= |ts| || (EventsOkFrom(ts[k].events, 0, t, d) && TracksOkFrom(ts, k + 1, t, d))
  }

  function SourcesOkFrom(ss: seq<Source>, k: nat, t: real, d: real): bool
    decreases |ss| - k
  {
    k >= |ss| || (SourceWithin(ss[k], t, d) && SourcesOkFrom(ss, k + 1, t, d))
  }

  /** The executable counterpart of `WellFormed`. */
  function Check(s: Sound, t: real, d: real): bool {
    DistinctFrom(s.tracks, 0) && TracksOkFrom(s.tracks, 0, t, d) && SourcesOkFrom(s.sources, 0, t, d)
  }

  lemma {:induction false} EventsOkFromAll(e: seq<Event>, i: nat, t: real, d: real)
    ensures EventsOkFrom(e, i, t, d) <==> forall a | i <= a < |e| :: StepOk(e, a, t, d)
    decreases |e| - i
  {
    if i < |e| {
      EventsOkFromAll(e, i + 1, t, d);
    }
  }

  /** Times ordered between neighbours are ordered between any two events. */
  lemma {:induction false} Chain(e: seq<Event>, a: nat, b: nat)
    requires forall i | 0 < i < |e| :: e[i - 1].time <= e[i].time
    requires a <= b < |e|
    ensures e[a].time <= e[b].time
    decreases b - a
  {
    if a < b {
      Chain(e, a, b - 1);
    }
  }

  lemma EventsOkIsTrackWellFormed(tr: Track, t: real, d: real)
    ensures EventsOkFrom(tr.events, 0, t, d) <==> TrackWellFormed(tr, t, d)
  {
    var e := tr.events;
    EventsOkFromAll(e, 0, t, d);
    if forall a | 0 <= a < |e| :: StepOk(e, a, t, d) {
      forall i | 0 <= i < |e| ensures t <= e[i].time <= t + d && RampWellDefined(e, i) {
        assert StepOk(e, i, t, d);
      }
      forall i | 0 < i < |e| ensures e[i - 1].time <= e[i].time {
        assert StepOk(e, i, t, d);
      }
      forall a, b | 0 <= a < b < |e| ensures e[a].time <= e[b].time {
        Chain(e, a, b);
      }
    }
    if TrackWellFormed(tr, t, d) {
      forall a | 0 <= a < |e| ensures StepOk(e, a, t, d) {
        if a > 0 {
          assert e[a - 1].time <= e[a].time;
        }
      }
    }
  }

  lemma {:induction false} ParamFreeFromAll(p: Param, ts: seq<Track>, j: nat)
    ensures ParamFreeFrom(p, ts, j) <==> forall l | j <= l < |ts| :: ts[l].param != p
    decreases |ts| - j
  {
    if j < |ts| {
      ParamFreeFromAll(p, ts, j + 1);
    }
  }

  lemma {:induction false} DistinctFromAll(ts: seq<Track>, k: nat)
    ensures DistinctFrom(ts, k) <==> forall a, b | k <= a < b < |ts| :: ts[a].param != ts[b].param
    decreases |ts| - k
  {
    if k < |ts| {
      ParamFreeFromAll(ts[k].param, ts, k + 1);
      DistinctFromAll(ts, k + 1);
    }
  }

  lemma {:induction false} TracksOkFromAll(ts: seq<Track>, k: nat, t: real, d: real)
    ensures TracksOkFrom(ts, k, t, d) <==> forall a | k <= a < |ts| :: TrackWellFormed(ts[a], t, d)
    decreases |ts| - k
  {
    if k < |ts| {
      EventsOkIsTrackWellFormed(ts[k], t, d);
      TracksOkFromAll(ts, k + 1, t, d);
    }
  }

  lemma {:induction false} SourcesOkFromAll(ss: seq<Source>, k: nat, t: real, d: real)
    ensures SourcesOkFrom(ss, k, t, d) <==> forall a | k <= a < |ss| :: SourceWithin(ss[a], t, d)
    decreases |ss| - k
  {
    if k < |ss| {
      SourcesOkFromAll(ss, k + 1, t, d);
    }
  }

  /** The executable check accepts exactly the well-formed sounds. */
  lemma CheckIsWellFormed(s: Sound, t: real, d: real)
    ensures Check(s, t, d) <==> WellFormed(s, t, d)
  {
    DistinctFromAll(s.tracks, 0);
    TracksOkFromAll(s.tracks, 0, t, d);
    SourcesOkFromAll(s.sources, 0, t, d);
  }

  function ShiftEvent(e: Event, d: real): (r: Event)
    ensures r.time == e.time + d
    ensures r == e.(time := r.time)
  {
    match e
    case SetValue(v, time) => SetValue(v, time + d)
    case LinearRamp(v, time) => LinearRamp(v, time + d)
    case ExponentialRamp(v, time) => ExponentialRamp(v, time + d)
    case Cancel(time) => Cancel(time + d)
  }

  function ShiftTrack(tr: Track, d: real): Track {
    Track(tr.param, seq(|tr.events|, i requires 0 <= i < |tr.events| => ShiftEvent(tr.events[i], d)))
  }

  function ShiftSource(s: Source, d: real): Source {
    var stop := match s.stop case Some(x) => Some(x + d) case None => None;
    s.(start := s.start + d, stop := stop)
  }

  /** The same sound, every time delayed by `d`. */
  function Shift(s: Sound, d: real): (r: Sound)
    ensures |r.tracks| == |s.tracks| && |r.sources| == |s.sources|
    ensures forall k | 0 <= k < |s.tracks| ::
      && r.tracks[k].param == s.tracks[k].param
      && |r.tracks[k].events| == |s.tracks[k].events|
      && forall i | 0 <= i < |s.tracks[k].events| ::
           r.tracks[k].events[i].time == s.tracks[k].events[i].time + d
    ensures forall k | 0 <= k < |s.sources| :: r.sources[k].start == s.sources[k].start + d
    ensures forall k | 0 <= k < |s.tracks| :: forall i | 0 <= i < |s.tracks[k].events| ::
      r.tracks[k].events[i] == s.tracks[k].events[i].(time := r.tracks[k].events[i].time)
    ensures forall k | 0 <= k < |s.sources| ::
      && r.sources[k].node == s.sources[k].node
      && r.sources[k].kind == s.sources[k].kind
      && (r.sources[k].stop.Some? <==> s.sources[k].stop.Some?)
      && (r.sources[k].stop.Some? ==> r.sources[k].stop.value == s.sources[k].stop.value + d)
  {
    Sound(seq(|s.tracks|, k requires 0 <= k < |s.tracks| => ShiftTrack(s.tracks[k], d)),
          seq(|s.sources|, k requires 0 <= k < |s.sources| => ShiftSource(s.sources[k], d)))
  }

  /** Delaying a well-formed sound keeps it well formed around the new start. */
  lemma ShiftWellFormed(s: Sound, t: real, dur: real, d: real)
    requires WellFormed(s, t, dur)
    ensures WellFormed(Shift(s, d), t + d, dur)
  {
    var r := Shift(s, d);
    forall k | 0 <= k < |r.tracks| ensures TrackWellFormed(r.tracks[k], t + d, dur) {
      var e, e' := s.tracks[k].events, r.tracks[k].events;
      assert TrackWellFormed(s.tracks[k], t, dur);
      forall i | 0 <= i < |e'| ensures RampWellDefined(e', i) {
        assert RampWellDefined(e, i);
        if e'[i].ExponentialRamp? {
          assert e[i].ExponentialRamp?;
          assert !e[i - 1].Cancel?;
        }
      }
    }
    forall k | 0 <= k < |r.sources| ensures SourceWithin(r.sources[k], t + d, dur) {
      assert SourceWithin(s.sources[k], t, dur);
    }
  }

  /** Two delays add up. */
  lemma ShiftShift(s: Sound, a: real, b: real)
    ensures Shift(Shift(s, a), b) == Shift(s, a + b)
  {
    var l, r := Shift(Shift(s, a), b), Shift(s, a + b);
    forall k | 0 <= k < |s.tracks| ensures l.tracks[k] == r.tracks[k] {
      var e := s.tracks[k].events;
      forall i | 0 <= i < |e| ensures l.tracks[k].events[i] == r.tracks[k].events[i] {
        match e[i]
        case SetValue(_, _) =>
        case LinearRamp(_, _) =>
        case ExponentialRamp(_, _) =>
        case Cancel(_) =>
      }
    }
    forall k | 0 <= k < |s.sources| ensures l.sources[k] == r.sources[k] {
    }
  }

  /** A delay of 0 changes nothing. */
  lemma ShiftZero(s: Sound)
    ensures Shift(s, 0.0) == s
  {
    var r := Shift(s, 0.0);
    forall k | 0 <= k < |s.tracks| ensures r.tracks[k] == s.tracks[k] {
      var e := s.tracks[k].events;
      forall i | 0 <= i < |e| ensures r.tracks[k].events[i] == e[i] {
        match e[i]
        case SetValue(_, _) =>
        case LinearRamp(_, _) =>
        case ExponentialRamp(_, _) =>
        case Cancel(_) =>
      }
    }
    forall k | 0 <= k < |s.sources| ensures r.sources[k] == s.sources[k] {
    }
  }

  /** Delaying by `d` and then by `-d` gives the sound back. */
  lemma ShiftInverse(s: Sound, d: real)
    ensures Shift(Shift(s, d), -d) == s
  {
    ShiftShift(s, d, -d);
    ShiftZero(s);
  }

  /** Well-formedness does not depend on when a sound starts: a schedule
      delayed by `d` is well formed in the delayed window exactly when the
      original is in the original window. */
  lemma ShiftWellFormedIff(s: Sound, t: real, dur: real, d: real)
    ensures WellFormed(Shift(s, d), t + d, dur) <==> WellFormed(s, t, dur)
  {
    if WellFormed(s, t, dur) {
      ShiftWellFormed(s, t, dur, d);
    }
    if WellFormed(Shift(s, d), t + d, dur) {
      ShiftBackWellFormed(s, t, dur, d);
    }
  }

  /** Undoing a delay keeps a schedule well formed. */
  lemma ShiftBackWellFormed(s: Sound, t: real, dur: real, d: real)
    requires WellFormed(Shift(s, d), t + d, dur)
    ensures WellFormed(s, t, dur)
  {
    var r := Shift(s, d);
    forall k | 0 <= k < |s.tracks| ensures TrackWellFormed(s.tracks[k], t, dur) {
      var e, e' := s.tracks[k].events, r.tracks[k].events;
      assert TrackWellFormed(r.tracks[k], t + d, dur);
      forall i | 0 <= i < |e| ensures RampWellDefined(e, i) {
        assert RampWellDefined(e', i);
        if e[i].ExponentialRamp? {
          assert e'[i].ExponentialRamp?;
          assert !e'[i - 1].Cancel?;
        }
      }
    }
    forall k | 0 <= k < |s.sources| ensures SourceWithin(s.sources[k], t, dur) {
      assert SourceWithin(r.sources[k], t + d, dur);
    }
  }
}

=== FILE: wrappers.dfy ===
/** Optional values, standing in for the source's nullable references. */
module Wrappers {

  datatype Option<+T> = None | Some(value: T) {

    /** Returns the value held in Some, or `default` when None. */
    function GetOr(default: T): T {
      match this
      case Some(v) => v
      case None => default
    }
  }
}
